=== FILE: README.md ===
# Replay-to-live webinar switching, modelled in Dafny

The system shows each scheduled webinar slot to attendees as a recorded replay until the slot's
switch time, then as the live session. An administrator can force the active slot live with a
global Go-Live flag, or force it back to replay. The design shares the flag and the active slot
between sessions through a realtime admin-state document. lib/realtime.ts implements that bridge,
but no page or component calls it: in the app as written, the flag and the active slot live only
in each browser's own store.

This project models the logic behind that as immutable datatypes and pure functions:

- **Store** (`WebinarStore`). The slot registry and its partial merge-update. The activity log, appended at the end and cut to the last 100 entries. The Go-Live flag, which logs on every set. The active slot, and the one global transition record.
- **Transition engine** (`WebinarPlayer`). A viewer's player with its local mode. The scheduled trigger and the admin on/off trigger. The two phases of a transition: begin, then complete after the settle delay. The session is a `World` of store and player, driven by explicit events: tick, flag set, active slot set, remote snapshot, completion timer, attendee count. The home page as written delivers only the tick, completion and count events to a mounted player. The flag, active-slot and snapshot events model a host that wires the shared admin state. After each change the two effects re-run whenever one of their inputs changed, the scheduled effect first, both reading the same render.
- **Realtime bridge** (`Realtime`). Applying a remote admin-state snapshot to the store. The write shapes, which swallow errors. The subscription and its idempotent cleanup. These are the bridge's own operations, which nothing in the shown app invokes.
- **Pure helpers and small state machines.** Meeting-number extraction and time-remaining text (`Utils`). The countdown (`CountdownTimer`). The simulated replay player (`MockEverWebinar`). The replay frame's message dispatch and listeners (`EverWebinarWrapper`). The dashboard helpers (`AdminDashboard`). The home page's mount and view choice (`HomePage`). The demo data (`SampleData`). The data model (`WebinarTypes`). Decimal-text helpers (`Text`).

Time is an integer number of milliseconds, passed in as `now`. A date text that fails to parse is the `Invalid` date, which compares as JavaScript's NaN date does. Random log-id parts are a `nonce` parameter.

## Behaviour as written

The system's design description says five things the code does not do. The model follows the code and proves what the code does instead. One more point is a defect in the code itself, and there the model does not follow the code:

- **Transitions are not re-entrant.**
  - Design: no trigger fires while a transition is in flight.
  - Code: `triggerTransition` never looks at the transition record. `WebinarPlayer.TransitionsOverlap` shows Go-Live switched on during a scheduled switch: it starts a second transition while the first is still settling. This needs a host that delivers the flag change to a mounted player; see the admin-state point below.
- **The idle record does not mean nothing is pending.**
  - Design: an idle transition record means no mode change is pending.
  - Code: the record is one global field, reset by whichever completion comes first. `WebinarPlayer.CompletionClearsRecordOfPendingSwitch` shows it reading idle while a switch is still pending.
- **The scheduled switch does not converge to live.**
  - Design: once the switch time has passed, the slot settles in live.
  - Code: on the active slot with Go-Live off, the admin-off trigger fires as soon as a scheduled switch to live completes, and the scheduled trigger then fires again. `WebinarPlayer.ScheduledLiveTriggersAdminOff` proves this first step. `WebinarPlayer.ActiveSlotNeverSettles` proves the slot flips mode at every completion.
  - The scheduled trigger also requires Go-Live to be off. So a slot that is not the active one never switches by schedule while Go-Live is on.
- **The store does not fill in the timestamp.**
  - Design: the log store assigns a timestamp when one is missing.
  - Code: `addLog` only adds the id.
- **Admin state is not shared, and a mounted player never sees it change.**
  - Design: the Go-Live flag and the active slot are shared between sessions through the realtime admin-state document, so an administrator's toggle reaches every viewer.
  - Code: nothing outside lib/realtime.ts refers to `realtimeManager` or any of its methods. The store is an in-memory store without persistence (lib/store.ts:14). The dashboard's toggles change only that store (components/AdminDashboard.tsx:37-44). The page renders either the dashboard or the player, never both (app/page.tsx:77-108).
  - Consequence: a mounted player receives only its own timers and the replay frame's counts. `WebinarPlayer.WiredRunKeepsAdminFlags` proves that such events never change the flag or the active slot. So after mount, the admin trigger can fire again only because the player's own mode changed, as in `WebinarPlayer.ScheduledLiveTriggersAdminOff`.
  - `WebinarPlayer.OverrideOnStartsOneTransition`, `WebinarPlayer.OverrideOnIgnoresInactiveSlot` and `WebinarPlayer.TransitionsOverlap` use a flag event. They describe a host that wires the shared state, which the shown page does not do. The same holds for the `Realtime` lemmas about snapshots and writes.
- **The replay surface does not compile as written.**
  - Code: the frame's `onLoad={handleLoad}` (components/EverWebinarWrapper.tsx:73) names a function that is declared only inside the effect (lines 21-31).
  - Consequence: a type check rejects the file. Code that skips the check throws a ReferenceError when the replay surface renders. The error boundary around the player (app/page.tsx:106-108) then replaces the whole player, so no player effect runs from a replay mount.
  - The model does not follow the code here. `EverWebinarWrapper.HandleLoad` states what the handler does if it is in scope, and the player model mounts as if the replay surface rendered. See "Left out".

## Model

| member | source | states |
|---|---|---|
| WebinarTypes.ParseMode | types/webinar.ts:9 | exactly the literals "replay" and "live" are modes, and a mode reads back as the literal it came from |
| WebinarTypes.ParseEvent | types/webinar.ts:25 | exactly the four event literals are log events, and an event reads back as its literal |
| WebinarTypes.LiteralsRoundTrip | types/webinar.ts:9-25 | writing a mode or an event as its literal and reading it back gives the same value |
| WebinarStore.KeepLast | lib/store.ts:55 | `slice(-n)`: the result is the final min(length, n) elements of the input |
| WebinarStore.AddLog | lib/store.ts:49-57 | the new record is the supplied entry with an id starting with "log_" and is placed last; the earlier records keep their order; the length becomes min(old + 1, 100); at capacity exactly the oldest record is dropped; nothing else in the store changes |
| WebinarStore.LogStaysBounded | lib/store.ts:55 | the log never holds more than 100 records, and below capacity it grows by exactly one |
| WebinarStore.AddLogsKeepsMostRecent | lib/store.ts:55 | after any sequence of appends the log is exactly the last 100 of the old records followed by the new ones, in append order |
| WebinarStore.KeepLastAppendedOne | lib/store.ts:55 | appending one record and keeping the last 100 puts the record last after the earlier records; below capacity nothing is dropped, and at capacity exactly the oldest is |
| WebinarStore.OverflowEvictsOldest | lib/store.ts:55 | after 101 appends to the empty log, the first record is gone and records 2 to 101 remain, oldest first |
| WebinarStore.SetGoLiveEnabled | lib/store.ts:27-35 | the flag takes the given value and one `admin_action` record is appended, reading "Go Live enabled" or "Go Live disabled"; it is attributed to the active slot, or to "system" when none is set or the id is empty; the active slot, slots and transition record are unchanged |
| WebinarStore.SetActiveSlot | lib/store.ts:37-39 | only the active-slot id changes (it may be cleared), and no record is logged |
| WebinarStore.MergePatch | lib/store.ts:44 | each field the update supplies replaces the slot's field; every other field keeps its old value |
| WebinarStore.UpdateSlot | lib/store.ts:41-47 | slot count and order are kept; slots with the update's id are merged and all others stay as they were; an unknown id leaves the store identical; logs, flag, active slot and transition record are untouched |
| WebinarStore.SetTransitionState | lib/store.ts:59-63 | each field the update supplies replaces the record's field, the others keep their value; the admin state is untouched |
| WebinarStore.InitializeSlots | lib/store.ts:65-67 | the registry is replaced wholesale; logs, flag, active slot and transition record are untouched |
| WebinarStore.LogAttribution | lib/store.ts:30 | `activeSlotId \|\| 'system'`: a non-empty active id is used as is; no active slot, or the empty id, gives "system"; the result is never empty |
| WebinarStore.FindSlot | components/AdminDashboard.tsx:32-34 | `find` by id: no slot is returned exactly when no slot has the id; otherwise the FIRST slot in registry order with that id |
| WebinarStore.FindSlotPrefersEarlier | components/AdminDashboard.tsx:32-34 | with two slots of the same id and none earlier, the earlier one is found, whatever follows |
| Realtime.ApplySnapshot | lib/realtime.ts:27-40 | a missing document changes nothing; a present Go-Live field sets the flag and logs one record, attributed to the slot that was active before the snapshot; an absent field leaves the value alone, while an explicit null clears the active slot; slots and transition record are unchanged |
| Realtime.SnapshotAlwaysLogs | lib/realtime.ts:32-34 | a snapshot repeating the current flag value still appends one log record |
| Realtime.SnapshotSettlesState | lib/realtime.ts:27-40 | applying the same snapshot twice leaves the flag and the active slot as one application did |
| Realtime.UpdateAdminState | lib/realtime.ts:46-53 | `updateDoc` on a missing document fails like a rejected write: the document is left as it was and "Failed to update admin state:" is reported without failing; an accepted write to an existing document merges the supplied fields and leaves the others |
| Realtime.UpdateNeverCreates | lib/realtime.ts:46-53 | a write never creates or deletes the admin-state document |
| Realtime.RemoteWriteIsObserved | lib/realtime.ts:27-53 | once one session's flag write is accepted, another session applying the resulting snapshot holds the written flag and active slot |
| Realtime.LogEvent | lib/realtime.ts:55-68 | `updateDoc` fails, stores nothing and reports "Failed to log event:" when the document does not exist, when the count is undefined, or when the write is rejected; otherwise the document holds exactly the given fields with the time; no document is ever created |
| Realtime.FreshLogIdNeverStored | lib/realtime.ts:57-58 | for an id that names no existing document, which is what the source's freshly generated id does, the log write always fails and stores nothing |
| Realtime.InitializeRealtimeSync | lib/realtime.ts:22-44 | a successful subscription opens a listener and keeps its unsubscribe handle; a failed one changes nothing |
| Realtime.Cleanup | lib/realtime.ts:70-75 | the kept listener, if any, is closed exactly once and the handle is cleared |
| Realtime.CleanupIdempotent | lib/realtime.ts:70-75 | a second cleanup closes nothing and changes nothing |
| Realtime.SubscribeThenCleanupLeavesNone | lib/realtime.ts:70-75 | subscribing and cleaning up leaves the same open listeners as before |
| Realtime.DoubleInitializeLeaksFirst | lib/realtime.ts:27 | initializing twice overwrites the first handle, so after cleanup the first listener is still open |
| WebinarPlayer.CheckScheduled | components/WebinarPlayer.tsx:31-37 | live is requested, for the scheduled reason, exactly when now is at or past a valid switch time, the player shows replay and Go-Live is off |
| WebinarPlayer.CheckAdmin | components/WebinarPlayer.tsx:49-56 | live is requested exactly when Go-Live is on, the slot is active and shows replay; replay is requested exactly when Go-Live is off, the slot is active and shows live; an inactive slot gets no request, and a request never targets the current mode |
| WebinarPlayer.TriggersExclusive | components/WebinarPlayer.tsx:35-55 | the scheduled and admin triggers never both fire on one render |
| WebinarPlayer.Fire | components/WebinarPlayer.tsx:35-36 | no request leaves the session as it was; a request queues exactly its target, sets the record to transitioning towards it, and appends one `mode_switched` record with the request's reason after the earlier records (the oldest evicted at capacity); nothing else in the player or the admin state changes |
| WebinarPlayer.BeginTransition | components/WebinarPlayer.tsx:58-70 | the transition record becomes {true, "Switching to X mode...", X}; one `mode_switched` record with the reason is appended; one completion is queued; the mode and the registry are unchanged |
| WebinarPlayer.CompleteTransition | components/WebinarPlayer.tsx:73-86 | the oldest pending target becomes the player's mode and the registry slot's mode, with a fresh switch time; the record resets to {false, "", replay}; other slots, logs and flags are unchanged; with nothing pending nothing happens |
| WebinarPlayer.RunEffects | components/WebinarPlayer.tsx:29-56 | re-running the effects never changes the player's mode, the registry, the Go-Live flag or the active slot; the pending queue grows by the scheduled trigger's target (when that effect runs and fires), then the admin trigger's (likewise), both decided on the same render |
| WebinarPlayer.QueuedAtMostOne | components/WebinarPlayer.tsx:35-55 | one re-run of the effects queues at most one transition |
| WebinarPlayer.Rerender | components/WebinarPlayer.tsx:47-56 | the scheduled effect re-runs exactly when the Go-Live flag or the mode changed, the admin effect exactly when the flag, whether the slot is active, or the mode changed; with no admin input changed the session is left exactly as the change made it; the mode is never changed by a re-run |
| WebinarPlayer.Mount | components/WebinarPlayer.tsx:15-56 | the player starts on the slot with the slot's mode and count; on the first render the scheduled effect starts the switch to live for a replay slot past its switch time with Go-Live off; the admin effect starts the switch to live for the active slot in replay with Go-Live on, and to replay for the active slot in live with Go-Live off; when none of these holds nothing is queued and the store is untouched; the admin state changes only in its log |
| WebinarPlayer.MountEstablishesInvariant | components/WebinarPlayer.tsx:15-56 | when the registry agrees with the slot's mode and the log is within 100 records, the first render satisfies the invariant (log bounded, registry showing the player's mode) |
| WebinarPlayer.MountThenRunKeepsInvariant | components/WebinarPlayer.tsx:15-95 | from such a first render, the invariant holds after any sequence of events |
| WebinarPlayer.AttendeeCountChanged | components/WebinarPlayer.tsx:89-95 | only the local count and the registry slot's count change; the mode, the log and the transition record do not |
| WebinarPlayer.FrameMessage | components/WebinarPlayer.tsx:89-123 | the replay frame's message composed with the player's count callback: an `attendee_count` from the frame's origin updates the local and the registry count exactly as the callback does; a `cta_clicked` leaves the player alone and appends one "CTA clicked: <name>" record; any other message changes nothing; the mode and pending switches never change |
| WebinarPlayer.Step | components/WebinarPlayer.tsx:29-95 | after any event and its render the player keeps its slot, and the registry keeps its size and the id at every position |
| WebinarPlayer.Run | components/WebinarPlayer.tsx:29-95 | the same holds after any sequence of events |
| WebinarPlayer.ModeChangesOnlyOnCompletion | components/WebinarPlayer.tsx:73-74 | the mode changes only when a completion fires, and then to the oldest pending target |
| WebinarPlayer.StepKeepsInvariant | components/WebinarPlayer.tsx:73-79 | after any event the log is still within 100 records and every registry entry of the player's slot still shows the player's mode |
| WebinarPlayer.RunKeepsInvariant | components/WebinarPlayer.tsx:73-79 | the same holds after any sequence of events |
| WebinarPlayer.TickBeforeSwitchKeepsReplay | components/WebinarPlayer.tsx:31-37 | before the switch time a tick changes nothing |
| WebinarPlayer.WiredStepKeepsAdminFlags | components/WebinarPlayer.tsx:41-95 | a tick, a completion or an attendee count, the only events the home page delivers to a mounted player, never changes the Go-Live flag or the active slot |
| WebinarPlayer.WiredRunKeepsAdminFlags | app/page.tsx:77-108 | since the page shows either the dashboard or the player, a mounted player keeps the flag and the active slot it mounted with through any run of such events |
| WebinarPlayer.OverrideOnIgnoresInactiveSlot | components/WebinarPlayer.tsx:49-56 | switching Go-Live on never touches the player of a slot that is not active |
| WebinarPlayer.OverrideOnStartsOneTransition | components/WebinarPlayer.tsx:51-52 | switching Go-Live on for the active slot in replay starts exactly one transition, to live |
| WebinarPlayer.ScheduledLiveTriggersAdminOff | components/WebinarPlayer.tsx:53-54 | on the active slot with Go-Live off, the completion of a switch to live immediately starts a switch back to replay, logged as "Admin disabled Go Live" |
| WebinarPlayer.FlapStep | components/WebinarPlayer.tsx:29-56 | in that situation each completion past the switch time flips the mode and queues the opposite switch |
| WebinarPlayer.ActiveSlotNeverSettles | components/WebinarPlayer.tsx:29-56 | after n such completions the player shows the starting mode flipped n times, with the opposite switch pending |
| WebinarPlayer.FlapRun | components/WebinarPlayer.tsx:29-56 | for any step that flips a flapping slot at each completion past the switch time, n such completions leave the starting mode flipped n times |
| WebinarPlayer.ActiveSlotNeverSettlesLive | components/WebinarPlayer.tsx:29-56 | after any even number of such completions the active slot is back in replay with a switch to live pending |
| WebinarPlayer.TickStartsScheduledSwitch | components/WebinarPlayer.tsx:31-37 | a tick past the switch time, in replay with Go-Live off, queues a switch to live and announces it |
| WebinarPlayer.CompletionClearsRecordOfPendingSwitch | components/WebinarPlayer.tsx:81-85 | with two switches to live queued, the first completion sets the record to idle while the second is still pending |
| WebinarPlayer.TransitionsOverlap | components/WebinarPlayer.tsx:58-87 | switching Go-Live on during a scheduled switch queues a second transition, and after the first completes the record reads idle with one still pending |
| WebinarPlayer.Render | components/WebinarPlayer.tsx:106-160 | replay shows the replay surface and the countdown, live shows the live surface; the overlay appears exactly while the record says transitioning, with its message; the badge reads LIVE or REPLAY with the local count |
| WebinarPlayer.BeginShowsOverlay | components/WebinarPlayer.tsx:58-115 | right after a transition begins, the overlay announces the target while the old content is still shown |
| WebinarPlayer.ExtractMeetingNumber | components/WebinarPlayer.tsx:165-168 | the result is "" exactly when no "/j/" is followed by a digit, otherwise the digit run after the first such "/j/" |
| WebinarPlayer.ExtractorsAgreeOnJoinUrls | lib/utils.ts:75-90 | on any URL with "/j/" followed by a digit the player's extractor and the shared one agree |
| WebinarPlayer.PlayerZoomConfig | components/WebinarPlayer.tsx:97-104 | the live configuration uses the attendee role, an empty password, the current address and the extracted meeting number |
| AdminDashboard.Reverse | components/AdminDashboard.tsx:51 | same length, element k is element length-1-k of the input |
| AdminDashboard.RecentLogs | components/AdminDashboard.tsx:50-52 | at most ten records, the k-th being the k-th most recent |
| AdminDashboard.ReverseSameElements | components/AdminDashboard.tsx:51 | reversing keeps exactly the same elements |
| AdminDashboard.RecentLogsNewestFirst | components/AdminDashboard.tsx:50-52 | the newest record comes first, and the list holds exactly the records of the last ten |
| AdminDashboard.AddedLogHeadsRecent | components/AdminDashboard.tsx:50-52 | a record just added heads the recent list |
| AdminDashboard.ToggleGoLive | components/AdminDashboard.tsx:42-44 | the flag takes the opposite value and one Go-Live record is appended; active slot, slots and transition record are unchanged |
| AdminDashboard.ToggleTwiceRestores | components/AdminDashboard.tsx:42-44 | toggling twice restores the flag and appends exactly the two Go-Live records, in order |
| AdminDashboard.OpenDashboard | components/AdminDashboard.tsx:32-35 | the initial selection is a slot whose id is the active slot's, or none exactly when no slot has that id; the activity panel starts closed |
| AdminDashboard.SelectSlot | components/AdminDashboard.tsx:37-40 | the clicked slot becomes both the selection and the active slot; nothing else changes |
| AdminDashboard.SelectionSurvivesReopen | components/AdminDashboard.tsx:32-40 | after selecting a registry slot, a newly opened dashboard selects a slot with that id |
| AdminDashboard.ToggleLogs | components/AdminDashboard.tsx:207 | the activity panel's visibility flips; the selection stays |
| AdminDashboard.ShowLog | components/AdminDashboard.tsx:216-228 | a log line shows the event and the details; the "Attendees:" line appears exactly when the count is present and not zero, an absent count shows nothing, and a count of 0 shows as a bare number |
| AdminDashboard.ZeroCountShowsBareZero | components/AdminDashboard.tsx:223 | a record with count 0 gets no "Attendees:" line, yet it does not look like a record without a count |
| AdminDashboard.ActivityPanel | components/AdminDashboard.tsx:214-233 | a closed panel shows nothing; an open one shows the recent records newest first |
| HomePage.ChosenSlotId | app/page.tsx:32-39 | a non-empty `slot` parameter is chosen, otherwise the first sample slot |
| HomePage.Mount | app/page.tsx:19-42 | slots become the sample slots; the chosen slot becomes both the page's slot and the active slot; the sign-in gate opens only when `admin` is exactly "true"; loading ends; logs, flag and transition record are untouched |
| HomePage.AuthSuccess | app/page.tsx:44-47 | the visitor becomes admin and the gate closes |
| HomePage.AuthCancel | app/page.tsx:49-53 | the gate closes and admin status is unchanged |
| HomePage.Logout | app/page.tsx:55-60 | both admin status and the gate are cleared |
| HomePage.SelectView | app/page.tsx:62-108 | loading wins over the gate, the gate over the dashboard, the dashboard over the participant view; the participant sees the first slot with the page's id, or not-found exactly when no slot has it |
| HomePage.PlainVisitSeesFirstSlot | app/page.tsx:36-38 | a visit without parameters shows the first sample slot's player, and that slot is the active one |
| HomePage.SlotParamOpensThatSlot | app/page.tsx:32-35 | a `slot` parameter naming a sample slot shows that slot's player |
| HomePage.UnknownSlotNotFound | app/page.tsx:86-103 | a `slot` parameter naming no slot shows not-found, although it still becomes the active slot |
| HomePage.OnlyTrueOpensGate | app/page.tsx:28-30 | the sign-in gate shows after mount exactly when `admin` is "true" |
| HomePage.SignInThenOut | app/page.tsx:44-83 | signing in shows the dashboard; signing out shows what a visitor without `admin` sees |
| HomePage.CancelShowsParticipantView | app/page.tsx:49-53 | cancelling the sign-in shows what a visitor without `admin` sees |
| EverWebinarWrapper.HandleLoad | components/EverWebinarWrapper.tsx:22-31 | one `attendee_joined` record with count 1 and "EverWebinar session loaded" is appended; nothing else changes |
| EverWebinarWrapper.HandleMessage | components/EverWebinarWrapper.tsx:33-55 | another origin, non-JSON data or an unknown type has no effect; `attendee_count` hands the count to the callback, if there is one, without logging; `cta_clicked` appends one `admin_action` record "CTA clicked: <name>" |
| EverWebinarWrapper.OnlyCtaClicksLog | components/EverWebinarWrapper.tsx:33-55 | the handler itself changes the store only for a `cta_clicked` from the frame's origin; an `attendee_count` reaches the store only through the callback (see `WebinarPlayer.FrameMessage`) |
| EverWebinarWrapper.AddListener | components/EverWebinarWrapper.tsx:57 | the handler is registered, at the end, and never twice |
| EverWebinarWrapper.RemoveListener | components/EverWebinarWrapper.tsx:60 | the handler is gone and every other registration remains |
| EverWebinarWrapper.MountThenCleanupRestores | components/EverWebinarWrapper.tsx:57-61 | mounting and tearing down leaves the listeners exactly as before |
| EverWebinarWrapper.RerunKeepsOneHandler | components/EverWebinarWrapper.tsx:57-62 | on a re-run the old handler is removed and the new one registered |
| Utils.PastFutureExclusive | lib/utils.ts:21-40 | `isPast` and `isFuture`: a date is never both past and future; an invalid date is neither; a valid one is one of them or exactly now |
| Utils.PastIsPermanent | lib/utils.ts:21-40 | as the clock advances a past date stays past, and a date still in the future was in the future before |
| Utils.SplitHours | lib/utils.ts:59-60 | whole hours and leftover whole minutes (below 60) fit in a non-negative difference and one more minute would not; the milliseconds past the whole minutes are what is left over |
| Utils.SplitRemaining | lib/utils.ts:59-60 | whole hours and minutes (minutes < 60) fit in the time left and one more minute would not; nothing is left exactly when the difference is not positive |
| Utils.GetTimeRemaining | lib/utils.ts:45-70 | "Invalid date" for an invalid date; "Time has passed" when the date is not in the future; otherwise text ending "m remaining" with an hour mark exactly when an hour or more is left |
| Utils.TimeRemainingText | lib/utils.ts:59-66 | a future deadline reads "<h>h <m>m remaining", or "<m>m remaining" under an hour, with h and m the whole hours and minutes left |
| Utils.LeftTextForm | lib/utils.ts:62-66 | the text for h hours and m minutes carries the "<h>h " part exactly when h is positive |
| Utils.FindMarker | lib/utils.ts:77-78 | the leftmost position where the marker is followed by a digit, or none when there is no such position |
| Utils.FindNineDigits | lib/utils.ts:79 | the leftmost position where nine digits start, or none |
| Utils.DigitRunLength | lib/utils.ts:77-79 | the greedy `\d+` run: all digits, ending at a non-digit or the end |
| Utils.JoinPathNumber | lib/utils.ts:77 | the capture of the first pattern, present exactly when "/j/" is followed by a digit, and a non-empty digit string |
| Utils.FallbackNumber | lib/utils.ts:78-86 | the second and third patterns: the digit run after the first "meeting/" followed by a digit; failing that, the digit run from the first place nine digits start; "" exactly when neither matches |
| Utils.ExtractZoomMeetingNumber | lib/utils.ts:75-90 | the result is "" exactly when none of the three patterns matches, otherwise all digits; the first "/j/" followed by a digit gives the run after it; failing that, the first "meeting/" followed by a digit gives the run after it; failing both, the first place nine digits start gives the run from there |
| Utils.JoinUrlNumber | lib/utils.ts:77-86 | a URL `p + "/j/" + digits + rest`, with no 'j' in `p` and `rest` not continuing the digits, yields exactly those digits |
| Utils.MeetingUrlNumber | lib/utils.ts:78-86 | a URL `p + "meeting/" + digits + rest`, with no "/j/" possible and no earlier "meeting/", yields exactly those digits |
| Utils.LongNumberUrlNumber | lib/utils.ts:79-86 | a URL `p + digits + rest` with at least nine digits, neither of the first two patterns possible and no digit in `p`, yields exactly those digits |
| Utils.JoinExample | lib/utils.ts:77-86 | "https://zoom.us/j/123456789?pwd=x" yields "123456789" |
| Utils.MeetingExample | lib/utils.ts:78-86 | "https://zoom.us/meeting/12" yields "12" |
| Utils.LongNumberExample | lib/utils.ts:79-86 | "https://zoom.us/s/123456789" yields "123456789" |
| CountdownTimer.CalculateTimeLeft | components/CountdownTimer.tsx:24-39 | for a positive difference, h, m, s (m, s < 60) satisfy h·3600000 + m·60000 + s·1000 ≤ difference < that + 1000, and the callback is not invoked; otherwise all fields are 0 and the callback is invoked |
| Utils.SplitSeconds | components/CountdownTimer.tsx:30-32 | whole hours, minutes and seconds (minutes and seconds below 60) fit in a non-negative difference and one more second would not |
| CountdownTimer.TimeUpIffNothingLeft | components/CountdownTimer.tsx:29-52 | the countdown reads time up exactly when no positive time is left, which is exactly when the callback was invoked |
| Text.NatToString | components/CountdownTimer.tsx:50 | `toString` of a non-negative integer: at least one digit, a single digit exactly below 10, and no leading zero except for 0 itself |
| Text.ParseNatToString | components/CountdownTimer.tsx:50 | the decimal text of a number reads back as that number |
| Text.TwoDigits | components/MockEverWebinar.tsx:53 | `toString().padStart(2, '0')`: at least two digits that read back as the value; a leading zero exactly below 10; exactly two characters below 100 |
| CountdownTimer.FormatTime | components/CountdownTimer.tsx:50 | 0–9 get a leading zero; 10 and above are written plainly; the text reads back as the value |
| CountdownTimer.Display | components/CountdownTimer.tsx:57-77 | time up shows "NOW!"; otherwise minutes and seconds, preceded by the hours segment exactly when hours > 0 |
| MockEverWebinar.AttendeeTick | components/MockEverWebinar.tsx:23-27 | the count becomes min(old + r, 150) for r in 0..2, and the callback gets exactly that count |
| MockEverWebinar.PlayTick | components/MockEverWebinar.tsx:30-34 | while paused nothing changes; while playing below the duration time advances one second; at or past the duration it is held at the duration; a tick never carries it past the duration |
| MockEverWebinar.HandlePlay | components/MockEverWebinar.tsx:42-44 | playback is on; count and time are unchanged |
| MockEverWebinar.HandlePlayIdempotent | components/MockEverWebinar.tsx:42-44 | pressing play twice is the same as once |
| MockEverWebinar.HandleCtaClick | components/MockEverWebinar.tsx:46-48 | the name reaches the callback unchanged, when there is one |
| MockEverWebinar.SplitClock | components/MockEverWebinar.tsx:51-52 | minutes·60 + seconds is the input and seconds < 60 |
| MockEverWebinar.FormatTime | components/MockEverWebinar.tsx:50-54 | at least five characters with the colon third from the end; exactly five below 100 minutes |
| MockEverWebinar.FormatTimeReadsBack | components/MockEverWebinar.tsx:50-54 | the two parts around the colon are digits that read back as minutes and seconds of the input, seconds below 60 |
| MockEverWebinar.ColonReadsBack | components/MockEverWebinar.tsx:53 | two digit texts joined by a colon read back as minutes·60 + seconds |
| MockEverWebinar.RunStaysBounded | components/MockEverWebinar.tsx:16-40 | from a state within bounds, after any run of ticks and presses the count is within 0..150 and the time within 0..5400, and neither is below where it started |
| SampleData.SampleWebinarSlots | lib/sample-data.ts:3-37 | three slots, each with a valid start and switch time |
| SampleData.LeaveUrl | lib/sample-data.ts:45 | the current address when there is one, otherwise "http://localhost:3000" |
| SampleData.SampleZoomConfigs | lib/sample-data.ts:39-64 | configurations exist exactly for the three sample ids |
| SampleData.SampleIdsDistinct | lib/sample-data.ts:5-29 | the three sample ids are distinct |
| SampleData.SampleSlotsStartInReplay | lib/sample-data.ts:3-37 | every sample slot starts in replay, active, with count 0 and no switch yet, and switches after it starts |
| SampleData.SampleSwitchOffsets | lib/sample-data.ts:9-32 | every sample slot switches 75 minutes after its start |
| SampleData.JoinUrlsReadBack | lib/sample-data.ts:8-30 | a join URL of the sample host reads back as its meeting number |
| SampleData.JoinSlotMatches | lib/sample-data.ts:3-64 | a slot whose join URL carries a meeting number matches an attendee configuration naming that number |
| SampleData.SlotMatchesConfig | lib/sample-data.ts:3-64 | each of the three sample slots matches the configuration under its id |
| SampleData.SampleConfigsMatchSlots | lib/sample-data.ts:3-64 | for every sample slot, the meeting number read from its URL is the one its configuration names, and that configuration uses the attendee role |

## Left out

- components/ZoomWrapper.tsx is not part of this model. It drives an external SDK that is not shown. The model's live surface is only a value of the player's screen.
- components/AdminAuth.tsx, LoadingSpinner, the error boundary, and all markup and styling: presentation and a password check, not transition logic.
- Firebase calls: `initializeApp`, `doc`, `onSnapshot`, `updateDoc` and the log-document writes are network I/O. The admin-state document is an input value, and whether a write is accepted is an input.
- `setInterval` and `setTimeout`: timers are the `Tick` and `Complete` events. Clearing an interval on effect cleanup is not modelled. The 60 s interval and the 2000 ms delay do not appear: the events arrive in whatever order the event sequence gives.
- React scheduling: each event is one render, and the store updates one event makes (a completion, a snapshot) land in that one render. Batching across events is not modelled: two events never share a render. An effect re-runs on the render after each event whose inputs it depends on changed.
- Dates: `parseISO`, `toISOString`, `toLocaleString` and `formatDateTime` are left out. Instants are integer milliseconds, and log timestamps and switch times are those integers rather than ISO texts.
- Random ids: the `Date.now()` and `Math.random()` parts of log ids are one `nonce` string, and the random increment of the mock counter is a parameter.
- `new URL(...).origin`: the frame's origin is given as a parameter.
- `JSON.parse`: a message's data is already parsed into `Payload`.
- `debounce`, `throttle`, `isValidZoomUrl` and `isValidEverWebinarUrl`: timer plumbing and platform URL parsing, outside the named core.
- The mock player's progress percentage (floating point) and its random tick intervals.
- lib/config.ts: constants only.
- `window.history.replaceState` in the cancel and logout handlers: browser history I/O. The URL reset is not modelled.
- SampleData.SampleWebinarSlots: the source evaluates `Date.now()` once per field when the module loads. The model builds all fields from one `now`. `HomePage.Mount` passes the mount time as that `now`.
- EverWebinarWrapper.HandleMessage: `data.count` is taken as an integer. A count of another JSON type, or an absent count, is not modelled. In the source an absent count reaches the callback as `undefined` and is merged into the slot as `attendeeCount: undefined` (lib/store.ts:44). A `ctaName` that is neither a string nor absent is not modelled either.
- Realtime.ApplySnapshot: a document field holding a value of the wrong type is not modelled.
- Text.NatToString: JavaScript writes integers of 10^21 and more in exponent notation. The model always writes plain digits.
- Integers are unbounded. JavaScript numbers lose integer precision above 2^53, and that is not modelled.
- Realtime.SnapshotAlwaysLogs: the length statement needs room in the log. At capacity, `ApplySnapshot` still appends one record, and the oldest is evicted.
- AdminDashboard.ToggleTwiceRestores: the exact log contents need room for two records. At capacity, the same two records are appended and the oldest are evicted.
- WebinarPlayer.ActiveSlotNeverSettles: only covers runs made entirely of completions past the switch time. Other events may interleave in the source.
- EverWebinarWrapper.HandleLoad: the model takes `handleLoad` as in scope at the frame's `onLoad`. As written, the replay surface cannot render: the name is undefined there, and the error boundary replaces the player. The model's player mounts and runs its effects as if the surface rendered. The load record itself is not part of the player's event set.
- Realtime.LogEvent: the generated document id is a parameter. With the source's fresh id, `updateDoc` always fails, so a stored log is reachable only for an id that already exists (see `Realtime.FreshLogIdNeverStored`).
- WebinarPlayer.Step: the 60 s interval is modelled as `Tick` events and the 2000 ms delay as `Complete` events. Nothing forces a completion to follow its begin within any time bound.
- The wiring of the realtime bridge: the shown app never calls it, so no component ties the flag, active-slot and snapshot events to a source. They are free inputs of the event sequence.

=== FILE: admin_dashboard.dfy ===
/**
  The admin dashboard's logic: the recent-activity list, the Go-Live toggle, slot selection
  and which log details are shown.
*/
module AdminDashboard {
  import opened WebinarTypes
  import opened WebinarStore

  /** How many log entries the activity panel lists. */
  const RecentLogCount := 10

  /** `xs` back to front. */
  function Reverse<T>(xs: seq<T>): (r: seq<T>)
    ensures |r| == |xs|
    ensures forall k :: 0 <= k < |xs| ==> r[k] == xs[|xs| - 1 - k]
    decreases |xs|
  {
    if |xs| == 0 then [] else [xs[|xs| - 1]] + Reverse(xs[..|xs| - 1])
  }

  /** `getRecentLogs`: the last ten entries (or fewer), most recent first. */
  function RecentLogs(logs: seq<WebinarLog>): (r: seq<WebinarLog>)
    ensures |r| == Min(|logs|, RecentLogCount)
    ensures forall k :: 0 <= k < |r| ==> r[k] == logs[|logs| - 1 - k]
  {
    Reverse(KeepLast(logs, RecentLogCount))
  }

  /** Reversing keeps exactly the same elements. */
  lemma ReverseSameElements<T>(xs: seq<T>)
    ensures forall x :: x in Reverse(xs) <==> x in xs
  {
    var r := Reverse(xs);
    forall k | 0 <= k < |xs| ensures xs[k] in r {
      assert r[|xs| - 1 - k] == xs[k];
    }
  }

  /** The newest entry heads the list, and the list holds exactly the entries of the last ten. */
  lemma RecentLogsNewestFirst(logs: seq<WebinarLog>)
    requires |logs| > 0
    ensures RecentLogs(logs)[0] == logs[|logs| - 1]
    ensures forall l :: l in RecentLogs(logs) <==> l in KeepLast(logs, RecentLogCount)
  {
    ReverseSameElements(KeepLast(logs, RecentLogCount));
  }

  /** After a log is added, it heads the recent list. */
  lemma AddedLogHeadsRecent(s: Store, entry: LogEntry, nonce: string)
    ensures RecentLogs(AddLog(s, entry, nonce).admin.logs)[0] == WebinarLog(LogIdPrefix + nonce, entry)
  {
  }

  /** `handleGoLiveToggle`: Go-Live takes the opposite value, logged like any other set. */
  function ToggleGoLive(s: Store, now: int, nonce: string): (r: Store)
    ensures r.admin.isGoLiveEnabled == !s.admin.isGoLiveEnabled
    ensures AppendedOne(s.admin.logs, r.admin.logs,
      WebinarLog(LogIdPrefix + nonce, GoLiveLog(s.admin.activeSlotId, !s.admin.isGoLiveEnabled, now)))
    ensures r.admin.activeSlotId == s.admin.activeSlotId && r.admin.slots == s.admin.slots
    ensures r.transitionState == s.transitionState
  {
    SetGoLiveEnabled(s, !s.admin.isGoLiveEnabled, now, nonce)
  }

  /** Toggling twice restores the flag, and both toggles are in the log, enabling one first. */
  lemma ToggleTwiceRestores(s: Store, t1: int, n1: string, t2: int, n2: string)
    requires |s.admin.logs| + 2 <= MaxLogs
    ensures var r := ToggleGoLive(ToggleGoLive(s, t1, n1), t2, n2);
      && r.admin.isGoLiveEnabled == s.admin.isGoLiveEnabled
      && r.admin.activeSlotId == s.admin.activeSlotId && r.admin.slots == s.admin.slots
      && r.admin.logs == s.admin.logs + [
           WebinarLog(LogIdPrefix + n1, GoLiveLog(s.admin.activeSlotId, !s.admin.isGoLiveEnabled, t1)),
           WebinarLog(LogIdPrefix + n2, GoLiveLog(s.admin.activeSlotId, s.admin.isGoLiveEnabled, t2))]
  {
    var r1 := ToggleGoLive(s, t1, n1);
    assert r1.admin.logs == s.admin.logs + [WebinarLog(LogIdPrefix + n1, GoLiveLog(s.admin.activeSlotId, !s.admin.isGoLiveEnabled, t1))];
  }

  /** The dashboard's own state: the highlighted slot and whether the activity panel is open. */
  datatype Dashboard = Dashboard(selectedSlot: Option<WebinarSlot>, showLogs: bool)

  /** The dashboard as it opens: the first slot with the active id, if any, and the panel closed. */
  function OpenDashboard(s: Store): (r: Dashboard)
    ensures !r.showLogs
    ensures r.selectedSlot.None? <==> forall i :: 0 <= i < |s.admin.slots| ==> Some(s.admin.slots[i].id) != s.admin.activeSlotId
    ensures r.selectedSlot.Some? ==> Some(r.selectedSlot.value.id) == s.admin.activeSlotId && r.selectedSlot.value in s.admin.slots
    ensures forall i :: FirstWithId(s.admin.slots, s.admin.activeSlotId, i) ==> r.selectedSlot == Some(s.admin.slots[i])
  {
    Dashboard(FindSlot(s.admin.slots, s.admin.activeSlotId), false)
  }

  /** `handleSlotSelect`: the clicked slot is highlighted and becomes the active slot. */
  function SelectSlot(d: Dashboard, s: Store, slot: WebinarSlot): (r: (Dashboard, Store))
    ensures r.0 == d.(selectedSlot := Some(slot))
    ensures r.1.admin.activeSlotId == Some(slot.id)
    ensures r.1.admin.(activeSlotId := s.admin.activeSlotId) == s.admin && r.1.transitionState == s.transitionState
  {
    (d.(selectedSlot := Some(slot)), SetActiveSlot(s, Some(slot.id)))
  }

  /** A dashboard opened after a slot of the registry was selected highlights a slot with that id. */
  lemma SelectionSurvivesReopen(d: Dashboard, s: Store, slot: WebinarSlot)
    requires slot in s.admin.slots
    ensures var r := OpenDashboard(SelectSlot(d, s, slot).1);
      r.selectedSlot.Some? && r.selectedSlot.value.id == slot.id
  {
    var s1 := SelectSlot(d, s, slot).1;
    var i :| 0 <= i < |s.admin.slots| && s.admin.slots[i] == slot;
    assert Some(s1.admin.slots[i].id) == s1.admin.activeSlotId;
  }

  function ToggleLogs(d: Dashboard): (r: Dashboard)
    ensures r.showLogs == !d.showLogs && r.selectedSlot == d.selectedSlot
  {
    d.(showLogs := !d.showLogs)
  }

  /**
    What the `log.attendeeCount && ...` guard renders: nothing for an absent count, the
    "Attendees:" line for a non-zero one, and for zero the number itself as bare text,
    since a falsy number is still rendered.
  */
  datatype CountShown = NoCount | AttendeesLine(count: int) | BareZero

  /** One line of the activity panel. */
  datatype LogLine = LogLine(event: string, details: string, count: CountShown)

  function ShowLog(log: WebinarLog): (r: LogLine)
    ensures r.event == EventName(log.entry.event) && r.details == log.entry.details
    ensures r.count.NoCount? <==> log.entry.attendeeCount.None?
    ensures r.count.BareZero? <==> log.entry.attendeeCount == Some(0)
    ensures r.count.AttendeesLine? <==> log.entry.attendeeCount.Some? && log.entry.attendeeCount.value != 0
    ensures r.count.AttendeesLine? ==> Some(r.count.count) == log.entry.attendeeCount
  {
    var shown :=
      if log.entry.attendeeCount.None? then NoCount
      else if log.entry.attendeeCount.value == 0 then BareZero
      else AttendeesLine(log.entry.attendeeCount.value);
    LogLine(EventName(log.entry.event), log.entry.details, shown)
  }

  /**
    A recorded count of zero gets no "Attendees:" line, but unlike an absent count it is not
    invisible: the panel shows a stray "0".
  */
  lemma ZeroCountShowsBareZero(log: WebinarLog)
    requires log.entry.attendeeCount == Some(0)
    ensures !ShowLog(log).count.AttendeesLine?
    ensures ShowLog(log) != ShowLog(log.(entry := log.entry.(attendeeCount := None)))
  {
  }

  /** The activity panel: nothing while closed, otherwise the recent entries newest first. */
  function ActivityPanel(d: Dashboard, logs: seq<WebinarLog>): (r: seq<LogLine>)
    ensures !d.showLogs ==> r == []
    ensures d.showLogs ==> |r| == Min(|logs|, RecentLogCount)
    ensures d.showLogs ==> forall k :: 0 <= k < |r| ==> r[k] == ShowLog(logs[|logs| - 1 - k])
  {
    if !d.showLogs then [] else
      var recent := RecentLogs(logs);
      seq(|recent|, k requires 0 <= k < |recent| => ShowLog(recent[k]))
  }
}

=== FILE: countdown_timer.dfy ===
/**
  The countdown shown in replay mode: one evaluation of the time left before the target
  instant, its two-digit formatting, and what is displayed.
*/
module CountdownTimer {
  import opened WebinarTypes
  import opened Text
  import opened Utils

  datatype TimeLeft = TimeLeft(hours: nat, minutes: nat, seconds: nat, total: int)

  const NoTimeLeft := TimeLeft(0, 0, 0, 0)

  /** One run of `calculateTimeLeft`: the new record and whether `onTimeReached` was invoked. */
  datatype Evaluation = Evaluation(timeLeft: TimeLeft, timeReached: bool)

  /**
    An invalid target yields a NaN difference, which is not positive, so it counts as
    reached, just as a target in the past does.
  */
  function CalculateTimeLeft(target: Date, now: int): (r: Evaluation)
    ensures target.Valid? && target.ms - now > 0 ==>
      var d := target.ms - now;
      var t := r.timeLeft;
      && !r.timeReached
      && t.total == d
      && t.minutes < 60 && t.seconds < 60
      && t.hours * MsPerHour + t.minutes * MsPerMinute + t.seconds * MsPerSecond <= d
      && d < t.hours * MsPerHour + t.minutes * MsPerMinute + t.seconds * MsPerSecond + MsPerSecond
    ensures !(target.Valid? && target.ms - now > 0) ==> r == Evaluation(NoTimeLeft, true)
  {
    if target.Valid? && target.ms - now > 0 then
      var d := target.ms - now;
      SplitSeconds(d);
      Evaluation(TimeLeft(d / MsPerHour, (d % MsPerHour) / MsPerMinute, (d % MsPerMinute) / MsPerSecond, d), false)
    else
      Evaluation(NoTimeLeft, true)
  }

  predicate IsTimeUp(t: TimeLeft) {
    t.total <= 0
  }

  /** The countdown reads "time up" exactly when no positive time was left at the evaluation. */
  lemma TimeUpIffNothingLeft(target: Date, now: int)
    ensures IsTimeUp(CalculateTimeLeft(target, now).timeLeft) <==> !(target.Valid? && target.ms > now)
    ensures IsTimeUp(CalculateTimeLeft(target, now).timeLeft) <==> CalculateTimeLeft(target, now).timeReached
  {
  }

  /** `value.toString().padStart(2, '0')`. */
  function FormatTime(value: nat): (r: string)
    ensures value < 10 ==> |r| == 2 && r[0] == '0' && r[1] == DigitChar(value)
    ensures value >= 10 ==> r == NatToString(value)
    ensures AllDigits(r) && ParseNat(r) == value
  {
    TwoDigits(value)
  }

  /** The text segments the countdown shows: "NOW!", or the optional hours then minutes and seconds. */
  function Display(t: TimeLeft): (r: seq<string>)
    ensures IsTimeUp(t) ==> r == ["NOW!"]
    ensures !IsTimeUp(t) ==> |r| == (if t.hours > 0 then 6 else 4)
    ensures !IsTimeUp(t) && t.hours > 0 ==> r[..2] == [FormatTime(t.hours), "h"]
    ensures !IsTimeUp(t) ==> r[|r| - 4..] == [FormatTime(t.minutes), "m", FormatTime(t.seconds), "s"]
  {
    if IsTimeUp(t) then ["NOW!"]
    else
      (if t.hours > 0 then [FormatTime(t.hours), "h"] else [])
      + [FormatTime(t.minutes), "m", FormatTime(t.seconds), "s"]
  }
}

=== FILE: everwebinar_wrapper.dfy ===
/**
  The replay frame's bridge: the log written when the frame loads, the dispatch of messages
  the frame posts, and the window listener registered for that dispatch.
*/
module EverWebinarWrapper {
  import opened WebinarTypes
  import opened WebinarStore

  /**
    The data of a posted message once parsed: not JSON at all, or an object with an optional
    `type`, a `count` and an optional `ctaName`.
  */
  datatype Payload = NotJson | Json(kind: Option<string>, count: int, ctaName: Option<string>)

  /** A posted message; the origin is the sender's, compared as text. */
  datatype Message = Message(origin: string, data: Payload)

  const LoadedDetails := "EverWebinar session loaded"
  const CtaPrefix := "CTA clicked: "

  /**
    `handleLoad`: one `attendee_joined` entry counting one attendee. This is what the handler
    does when the frame's `onLoad` can reach it; as written that name is out of scope there.
  */
  function HandleLoad(s: Store, slotId: string, now: int, nonce: string): (r: Store)
    ensures AppendedOne(s.admin.logs, r.admin.logs,
      WebinarLog(LogIdPrefix + nonce, LogEntry(slotId, now, AttendeeJoined, LoadedDetails, Some(1))))
    ensures SameExceptLogs(s, r)
  {
    AddLog(s, LogEntry(slotId, now, AttendeeJoined, LoadedDetails, Some(1)), nonce)
  }

  /** A template literal shows an absent value as "undefined". */
  function CtaName(name: Option<string>): string {
    if name.Some? then name.value else "undefined"
  }

  /** What one message did: the store after it and the count handed to the callback, if any. */
  datatype Handled = Handled(store: Store, reported: Option<int>)

  /**
    `handleMessage`: messages from another origin, non-JSON data and unknown types change
    nothing; `attendee_count` reaches the callback (when there is one) without logging;
    `cta_clicked` logs one `admin_action` entry naming the button.
  */
  function HandleMessage(s: Store, slotId: string, frameOrigin: string, hasCallback: bool, m: Message, now: int, nonce: string)
    : (r: Handled)
    ensures m.origin != frameOrigin || m.data.NotJson? ==> r == Handled(s, None)
    ensures m.origin == frameOrigin && m.data.Json? && m.data.kind == Some("attendee_count") ==>
      r.store == s && (r.reported.Some? <==> hasCallback) && (hasCallback ==> r.reported == Some(m.data.count))
    ensures m.origin == frameOrigin && m.data.Json? && m.data.kind == Some("cta_clicked") ==>
      && r.reported.None?
      && AppendedOne(s.admin.logs, r.store.admin.logs,
           WebinarLog(LogIdPrefix + nonce, LogEntry(slotId, now, AdminAction, CtaPrefix + CtaName(m.data.ctaName), None)))
      && SameExceptLogs(s, r.store)
    ensures m.data.Json? && m.data.kind != Some("attendee_count") && m.data.kind != Some("cta_clicked") ==>
      r == Handled(s, None)
  {
    if m.origin != frameOrigin then Handled(s, None)
    else match m.data
      case NotJson => Handled(s, None)
      case Json(kind, count, ctaName) =>
        if kind == Some("attendee_count") then Handled(s, if hasCallback then Some(count) else None)
        else if kind == Some("cta_clicked") then
          Handled(AddLog(s, LogEntry(slotId, now, AdminAction, CtaPrefix + CtaName(ctaName), None), nonce), None)
        else Handled(s, None)
  }

  /** An `attendee_count` message from the frame's own origin. */
  predicate CountMessage(m: Message, frameOrigin: string) {
    m.origin == frameOrigin && m.data.Json? && m.data.kind == Some("attendee_count")
  }

  /** A `cta_clicked` message from the frame's own origin. */
  predicate CtaMessage(m: Message, frameOrigin: string) {
    m.origin == frameOrigin && m.data.Json? && m.data.kind == Some("cta_clicked")
  }

  /**
    The handler itself changes the store only by logging a button press from the frame's own
    origin; a count reaches the store only through the callback.
  */
  lemma OnlyCtaClicksLog(s: Store, slotId: string, frameOrigin: string, hasCallback: bool, m: Message, now: int, nonce: string)
    ensures HandleMessage(s, slotId, frameOrigin, hasCallback, m, now, nonce).store != s ==>
      m.origin == frameOrigin && m.data.Json? && m.data.kind == Some("cta_clicked")
  {
  }

  /** The window's message listeners, by handler identity. */
  type Listeners = seq<nat>

  /** `addEventListener`: a handler already registered is not added twice. */
  function AddListener(ls: Listeners, h: nat): (r: Listeners)
    ensures h in r && (h in ls ==> r == ls) && (h !in ls ==> r == ls + [h])
  {
    if h in ls then ls else ls + [h]
  }

  /** `removeEventListener`: the handler is no longer registered; the others keep their order. */
  function RemoveListener(ls: Listeners, h: nat): (r: Listeners)
    ensures h !in r
    ensures forall x :: x in r <==> x in ls && x != h
    ensures h !in ls ==> r == ls
    decreases |ls|
  {
    if |ls| == 0 then []
    else if ls[|ls| - 1] == h then RemoveListener(ls[..|ls| - 1], h)
    else RemoveListener(ls[..|ls| - 1], h) + [ls[|ls| - 1]]
  }

  /** Mounting adds a fresh handler, and the cleanup removes it: no listener survives teardown. */
  lemma {:induction false} MountThenCleanupRestores(ls: Listeners, h: nat)
    requires h !in ls
    ensures RemoveListener(AddListener(ls, h), h) == ls
  {
    var added := ls + [h];
    assert added[..|added| - 1] == ls;
  }

  /**
    When the effect re-runs (a new URL, slot or callback), the old handler is removed before the
    new one is added: the old handler no longer hears messages and the new one is registered last.
  */
  lemma RerunKeepsOneHandler(ls: Listeners, previous: nat, next: nat)
    requires previous in ls && next !in ls
    ensures var r := AddListener(RemoveListener(ls, previous), next);
      previous !in r && next in r && r[|r| - 1] == next
  {
  }
}

=== FILE: mock_everwebinar.dfy ===
/**
  The simulated replay player: an attendee counter that grows by a random 0, 1 or 2 up to
  150, a one-second playback clock capped at the 90-minute duration, and mm:ss formatting.
*/
module MockEverWebinar {
  import opened WebinarTypes
  import opened Text

  const MaxMockAttendees := 150
  /** Playback duration in seconds (90 minutes). */
  const Duration := 90 * 60

  datatype MockState = MockState(attendeeCount: int, isPlaying: bool, currentTime: int)

  const InitialMock := MockState(0, false, 0)

  /** Result of one attendee tick: the new state and the count handed to the callback. */
  datatype CountTick = CountTick(state: MockState, reported: int)

  /** One attendee tick with random increment `increment`, `Math.floor(Math.random() * 3)`. */
  function AttendeeTick(m: MockState, increment: nat): (r: CountTick)
    requires increment < 3
    ensures r.state.attendeeCount == Min(m.attendeeCount + increment, MaxMockAttendees)
    ensures r.reported == r.state.attendeeCount
    ensures r.state.isPlaying == m.isPlaying && r.state.currentTime == m.currentTime
  {
    var n := Min(m.attendeeCount + increment, MaxMockAttendees);
    CountTick(m.(attendeeCount := n), n)
  }

  /** One playback tick: one second further only while playing, held at the duration once it is reached. */
  function PlayTick(m: MockState): (r: MockState)
    ensures !m.isPlaying ==> r == m
    ensures m.isPlaying && m.currentTime < Duration ==> r.currentTime == m.currentTime + 1
    ensures m.isPlaying && m.currentTime >= Duration ==> r.currentTime == Duration
    ensures r.currentTime <= Duration || r.currentTime == m.currentTime
    ensures r.attendeeCount == m.attendeeCount && r.isPlaying == m.isPlaying
  {
    if m.isPlaying then m.(currentTime := Min(m.currentTime + 1, Duration)) else m
  }

  function HandlePlay(m: MockState): (r: MockState)
    ensures r.isPlaying
    ensures r.attendeeCount == m.attendeeCount && r.currentTime == m.currentTime
  {
    m.(isPlaying := true)
  }

  /** Pressing play again changes nothing. */
  lemma HandlePlayIdempotent(m: MockState)
    ensures HandlePlay(HandlePlay(m)) == HandlePlay(m)
  {
  }

  /** `onCtaClick?.(ctaName)`: the name reaches the callback unchanged, when there is one. */
  function HandleCtaClick(ctaName: string, hasCallback: bool): (r: Option<string>)
    ensures hasCallback <==> r == Some(ctaName)
    ensures !hasCallback ==> r.None?
  {
    if hasCallback then Some(ctaName) else None
  }

  /** `mm:ss` of a non-negative number of seconds; minutes are not capped at 59. */
  datatype Clock = Clock(minutes: nat, seconds: nat)

  function SplitClock(total: nat): (c: Clock)
    ensures c.minutes * 60 + c.seconds == total && c.seconds < 60
  {
    Clock(total / 60, total % 60)
  }

  function FormatTime(total: nat): (r: string)
    ensures |r| >= 5 && r[|r| - 3] == ':'
    ensures total < 100 * 60 ==> |r| == 5
  {
    var c := SplitClock(total);
    var mm := TwoDigits(c.minutes);
    var ss := TwoDigits(c.seconds);
    SplitAtColon(mm, ss);
    mm + ":" + ss
  }

  /** `r` is `mm:ss` with digit parts reading back as `total` seconds, seconds below 60. */
  predicate ReadsBackAs(r: string, total: nat) {
    var k := |r| - 3;
    && 2 <= k && r[k] == ':'
    && AllDigits(r[..k]) && AllDigits(r[k + 1..])
    && ParseNat(r[..k]) * 60 + ParseNat(r[k + 1..]) == total
    && ParseNat(r[k + 1..]) < 60
  }

  /** The formatted clock reads back as the seconds it was made from. */
  lemma FormatTimeReadsBack(total: nat)
    ensures ReadsBackAs(FormatTime(total), total)
  {
    var c := SplitClock(total);
    var mm := TwoDigits(c.minutes);
    var ss := TwoDigits(c.seconds);
    assert FormatTime(total) == mm + ":" + ss;
    ColonReadsBack(mm, ss, c);
  }

  /** `mm:ss` built from the digits of a clock reads back as that clock. */
  lemma ColonReadsBack(mm: string, ss: string, c: Clock)
    requires |mm| >= 2 && |ss| == 2 && AllDigits(mm) && AllDigits(ss)
    requires ParseNat(mm) == c.minutes && ParseNat(ss) == c.seconds && c.seconds < 60
    ensures ReadsBackAs(mm + ":" + ss, c.minutes * 60 + c.seconds)
  {
    var r := mm + ":" + ss;
    var k := |r| - 3;
    assert r[..k] == mm;
    assert r[k + 1..] == ss;
  }

  lemma SplitAtColon(mm: string, ss: string)
    requires |ss| == 2
    ensures var r := mm + ":" + ss;
      |r| - 3 == |mm| && r[..|r| - 3] == mm && r[|r| - 2..] == ss && r[|r| - 3] == ':'
  {
  }

  /** The simulated events of the mock player. */
  datatype MockEvent = CountTickEvent(increment: nat) | PlayTickEvent | PlayPressed

  predicate ValidEvent(e: MockEvent) {
    e.CountTickEvent? ==> e.increment < 3
  }

  function StepMock(m: MockState, e: MockEvent): MockState
    requires ValidEvent(e)
  {
    match e
    case CountTickEvent(k) => AttendeeTick(m, k).state
    case PlayTickEvent => PlayTick(m)
    case PlayPressed => HandlePlay(m)
  }

  function RunMock(m: MockState, es: seq<MockEvent>): MockState
    requires forall i :: 0 <= i < |es| ==> ValidEvent(es[i])
    decreases |es|
  {
    if |es| == 0 then m else RunMock(StepMock(m, es[0]), es[1..])
  }

  predicate Bounded(m: MockState) {
    0 <= m.attendeeCount <= MaxMockAttendees && 0 <= m.currentTime <= Duration
  }

  /**
    From the initial state the counter never decreases and never exceeds 150, and the
    playback clock stays within 0..5400, whatever the random increments and event order.
  */
  lemma {:induction false} RunStaysBounded(m: MockState, es: seq<MockEvent>)
    requires forall i :: 0 <= i < |es| ==> ValidEvent(es[i])
    requires Bounded(m)
    ensures Bounded(RunMock(m, es))
    ensures RunMock(m, es).attendeeCount >= m.attendeeCount
    ensures RunMock(m, es).currentTime >= m.currentTime
    decreases |es|
  {
    if |es| > 0 {
      var m1 := StepMock(m, es[0]);
      assert Bounded(m1) && m1.attendeeCount >= m.attendeeCount && m1.currentTime >= m.currentTime;
      RunStaysBounded(m1, es[1..]);
    }
  }
}

=== FILE: page.dfy ===
/**
  The home page: what the first render does with the query parameters, the admin sign-in and
  sign-out handlers, and which view is shown.
*/
module HomePage {
  import opened WebinarTypes
  import opened WebinarStore
  import SampleData

  datatype Page = Page(isAdmin: bool, needsAuth: bool, currentSlotId: Option<string>, isLoading: bool)

  const InitialPage := Page(false, false, None, true)

  /** The `admin` and `slot` query parameters; `None` when the parameter is absent. */
  datatype UrlParams = UrlParams(admin: Option<string>, slot: Option<string>)

  /** The slot the page opens: a non-empty `slot` parameter, otherwise the first sample slot. */
  function ChosenSlotId(params: UrlParams, now: int): (r: string)
    ensures params.slot.Some? && params.slot.value != "" ==> r == params.slot.value
    ensures params.slot.None? || params.slot.value == "" ==> r == SampleData.SampleWebinarSlots(now)[0].id
  {
    if params.slot.Some? && params.slot.value != "" then params.slot.value
    else SampleData.SampleWebinarSlots(now)[0].id
  }

  /**
    The mount effect: the registry is replaced by the sample slots built at `now`, the chosen
    slot becomes both the page's slot and the active slot, the sign-in gate opens only for
    `admin=true`, and loading ends.
  */
  function Mount(p: Page, s: Store, params: UrlParams, now: int): (r: (Page, Store))
    ensures r.1.admin.slots == SampleData.SampleWebinarSlots(now)
    ensures r.1.admin.activeSlotId == Some(ChosenSlotId(params, now)) && r.0.currentSlotId == r.1.admin.activeSlotId
    ensures r.0.needsAuth <==> p.needsAuth || params.admin == Some("true")
    ensures !r.0.isLoading && r.0.isAdmin == p.isAdmin
    ensures r.1.admin.logs == s.admin.logs && r.1.admin.isGoLiveEnabled == s.admin.isGoLiveEnabled
    ensures r.1.transitionState == s.transitionState
  {
    var s1 := InitializeSlots(s, SampleData.SampleWebinarSlots(now));
    var id := ChosenSlotId(params, now);
    var s2 := SetActiveSlot(s1, Some(id));
    var needsAuth := if params.admin == Some("true") then true else p.needsAuth;
    (p.(needsAuth := needsAuth, currentSlotId := Some(id), isLoading := false), s2)
  }

  function AuthSuccess(p: Page): (r: Page)
    ensures r.isAdmin && !r.needsAuth
    ensures r.currentSlotId == p.currentSlotId && r.isLoading == p.isLoading
  {
    p.(isAdmin := true, needsAuth := false)
  }

  /** Cancelling the sign-in closes the gate; whether the visitor is an admin is not touched. */
  function AuthCancel(p: Page): (r: Page)
    ensures !r.needsAuth && r.isAdmin == p.isAdmin
    ensures r.currentSlotId == p.currentSlotId && r.isLoading == p.isLoading
  {
    p.(needsAuth := false)
  }

  function Logout(p: Page): (r: Page)
    ensures !r.isAdmin && !r.needsAuth
    ensures r.currentSlotId == p.currentSlotId && r.isLoading == p.isLoading
  {
    p.(isAdmin := false, needsAuth := false)
  }

  datatype View = Loading | AuthGate | AdminView | NotFound | PlayerView(slot: WebinarSlot)

  /** Loading wins over the sign-in gate, which wins over the dashboard, which wins over the participant view. */
  function SelectView(p: Page, slots: seq<WebinarSlot>): (r: View)
    ensures r.Loading? <==> p.isLoading
    ensures r.AuthGate? <==> !p.isLoading && p.needsAuth
    ensures r.AdminView? <==> !p.isLoading && !p.needsAuth && p.isAdmin
    ensures r.NotFound? <==>
      !p.isLoading && !p.needsAuth && !p.isAdmin && forall i :: 0 <= i < |slots| ==> Some(slots[i].id) != p.currentSlotId
    ensures r.PlayerView? ==> Some(r.slot.id) == p.currentSlotId && r.slot in slots
    ensures forall i :: !p.isLoading && !p.needsAuth && !p.isAdmin && FirstWithId(slots, p.currentSlotId, i) ==>
      r == PlayerView(slots[i])
  {
    if p.isLoading then Loading
    else if p.needsAuth then AuthGate
    else if p.isAdmin then AdminView
    else
      var slot := FindSlot(slots, p.currentSlotId);
      if slot.None? then NotFound else PlayerView(slot.value)
  }

  /** A visitor with no parameters sees the player of the first sample slot, which is the active slot. */
  lemma PlainVisitSeesFirstSlot(s: Store, now: int)
    ensures var (p, s1) := Mount(InitialPage, s, UrlParams(None, None), now);
      && SelectView(p, s1.admin.slots) == PlayerView(SampleData.SampleWebinarSlots(now)[0])
      && s1.admin.activeSlotId == Some(SampleData.SampleWebinarSlots(now)[0].id)
  {
    var slots := SampleData.SampleWebinarSlots(now);
    assert FindSlotIndex(slots, Some(slots[0].id), 0) == Some(0);
  }

  /** A `slot` parameter naming a sample slot opens that slot's player. */
  lemma SlotParamOpensThatSlot(s: Store, now: int, admin: Option<string>, i: nat)
    requires admin != Some("true") && i < 3
    ensures var slots := SampleData.SampleWebinarSlots(now);
      var (p, s1) := Mount(InitialPage, s, UrlParams(admin, Some(slots[i].id)), now);
      SelectView(p, s1.admin.slots) == PlayerView(slots[i])
  {
    var slots := SampleData.SampleWebinarSlots(now);
    SampleData.SampleIdsDistinct(now);
    assert slots[i].id != "" by { assert |slots[i].id| > 0; }
    var k := FindSlotIndex(slots, Some(slots[i].id), 0);
    assert k.Some? && k.value == i;
  }

  /** A `slot` parameter naming no slot leads to the not-found view, although it becomes the active slot. */
  lemma UnknownSlotNotFound(s: Store, now: int, id: string)
    requires id != ""
    requires forall i :: 0 <= i < 3 ==> SampleData.SampleWebinarSlots(now)[i].id != id
    ensures var (p, s1) := Mount(InitialPage, s, UrlParams(None, Some(id)), now);
      SelectView(p, s1.admin.slots) == NotFound && s1.admin.activeSlotId == Some(id)
  {
  }

  /** Only the exact value "true" opens the sign-in gate. */
  lemma OnlyTrueOpensGate(s: Store, now: int, admin: Option<string>, slot: Option<string>)
    ensures var (p, s1) := Mount(InitialPage, s, UrlParams(admin, slot), now);
      SelectView(p, s1.admin.slots) == AuthGate <==> admin == Some("true")
  {
  }

  /** Signing in after `admin=true` shows the dashboard; signing out returns to the participant view. */
  lemma SignInThenOut(s: Store, now: int, slot: Option<string>)
    ensures var (p, s1) := Mount(InitialPage, s, UrlParams(Some("true"), slot), now);
      && SelectView(AuthSuccess(p), s1.admin.slots) == AdminView
      && SelectView(Logout(AuthSuccess(p)), s1.admin.slots) == SelectView(Mount(InitialPage, s, UrlParams(None, slot), now).0, s1.admin.slots)
  {
  }

  /** Cancelling the sign-in also falls back to the participant view. */
  lemma CancelShowsParticipantView(s: Store, now: int, slot: Option<string>)
    ensures var (p, s1) := Mount(InitialPage, s, UrlParams(Some("true"), slot), now);
      SelectView(AuthCancel(p), s1.admin.slots) == SelectView(Mount(InitialPage, s, UrlParams(None, slot), now).0, s1.admin.slots)
  {
  }
}

=== FILE: realtime.dfy ===
/**
  The realtime bridge: how a snapshot of the remote `admin/state` document is applied to the
  local store, how a local change is written out, and the lifetime of the subscription.
  The remote store itself is opaque: a document value and the success of each write are inputs.
*/
module Realtime {
  import opened WebinarTypes
  import opened WebinarStore

  /** A document field: `Absent` is `undefined`, `Present` carries the stored value. */
  datatype Field<T> = Absent | Present(value: T)

  /** One snapshot of the admin-state document; `activeSlotId` may be stored as null (`None`). */
  datatype AdminDoc = AdminDoc(
    docExists: bool,
    isGoLiveEnabled: Field<bool>,
    activeSlotId: Field<Option<string>>)

  /**
    The `onSnapshot` callback: a missing document changes nothing; a present Go-Live field is
    applied through `setGoLiveEnabled` (which logs), then a present active-slot field through
    `setActiveSlot`. Nothing is written back to the remote document.
  */
  function ApplySnapshot(s: Store, doc: AdminDoc, now: int, nonce: string): (r: Store)
    ensures !doc.docExists ==> r == s
    ensures r.admin.isGoLiveEnabled ==
      (if doc.docExists && doc.isGoLiveEnabled.Present? then doc.isGoLiveEnabled.value else s.admin.isGoLiveEnabled)
    ensures r.admin.activeSlotId ==
      (if doc.docExists && doc.activeSlotId.Present? then doc.activeSlotId.value else s.admin.activeSlotId)
    ensures doc.docExists && doc.isGoLiveEnabled.Present? ==>
      AppendedOne(s.admin.logs, r.admin.logs,
        WebinarLog(LogIdPrefix + nonce, GoLiveLog(s.admin.activeSlotId, doc.isGoLiveEnabled.value, now)))
    ensures !(doc.docExists && doc.isGoLiveEnabled.Present?) ==> r.admin.logs == s.admin.logs
    ensures r.admin.slots == s.admin.slots && r.transitionState == s.transitionState
  {
    if !doc.docExists then s
    else
      var s1 := if doc.isGoLiveEnabled.Present? then SetGoLiveEnabled(s, doc.isGoLiveEnabled.value, now, nonce) else s;
      if doc.activeSlotId.Present? then SetActiveSlot(s1, doc.activeSlotId.value) else s1
  }

  /**
    Every snapshot carrying the Go-Live field logs one entry, even when the flag already has
    that value; the entry names the slot that was active before the snapshot.
  */
  lemma SnapshotAlwaysLogs(s: Store, enabled: bool, active: Option<string>, now: int, nonce: string)
    requires s.admin.isGoLiveEnabled == enabled
    requires |s.admin.logs| < MaxLogs
    ensures var r := ApplySnapshot(s, AdminDoc(true, Present(enabled), Present(active)), now, nonce);
      && r.admin.isGoLiveEnabled == s.admin.isGoLiveEnabled
      && |r.admin.logs| == |s.admin.logs| + 1
      && r.admin.logs[|s.admin.logs|].entry.slotId == LogAttribution(s.admin.activeSlotId)
      && r.admin.activeSlotId == active
  {
  }

  /** Applying the same snapshot twice leaves the flag and the active slot as one application did. */
  lemma SnapshotSettlesState(s: Store, doc: AdminDoc, t1: int, n1: string, t2: int, n2: string)
    ensures var r1 := ApplySnapshot(s, doc, t1, n1);
      var r2 := ApplySnapshot(r1, doc, t2, n2);
      && r2.admin.isGoLiveEnabled == r1.admin.isGoLiveEnabled
      && r2.admin.activeSlotId == r1.admin.activeSlotId
      && r2.admin.slots == s.admin.slots
  {
  }

  /** The fields `updateAdminState` may write; the active slot cannot be written as null. */
  datatype AdminUpdate = AdminUpdate(isGoLiveEnabled: Option<bool>, activeSlotId: Option<string>)

  /** What the transport did with a write, decided outside the model. */
  datatype WriteOutcome = Accepted | Rejected

  /** The remote document after a write and the errors reported on the console (never thrown). */
  datatype Written = Written(doc: AdminDoc, consoleErrors: seq<string>)

  const UpdateFailedMessage := "Failed to update admin state:"
  const LogFailedMessage := "Failed to log event:"

  /**
    `updateAdminState`: `updateDoc` fails on a document that does not exist, and otherwise the
    transport may still reject the write. An accepted write merges the supplied fields into the
    existing document; a failure is reported on the console and swallowed.
  */
  function UpdateAdminState(doc: AdminDoc, u: AdminUpdate, outcome: WriteOutcome): (r: Written)
    ensures !doc.docExists || outcome.Rejected? ==> r == Written(doc, [UpdateFailedMessage])
    ensures doc.docExists && outcome.Accepted? ==> r.consoleErrors == [] && r.doc.docExists
    ensures doc.docExists && outcome.Accepted? ==>
      r.doc.isGoLiveEnabled == (if u.isGoLiveEnabled.Some? then Present(u.isGoLiveEnabled.value) else doc.isGoLiveEnabled)
    ensures doc.docExists && outcome.Accepted? ==>
      r.doc.activeSlotId == (if u.activeSlotId.Some? then Present(Some(u.activeSlotId.value)) else doc.activeSlotId)
  {
    if !doc.docExists || outcome.Rejected? then Written(doc, [UpdateFailedMessage])
    else
      var goLive := if u.isGoLiveEnabled.Some? then Present(u.isGoLiveEnabled.value) else doc.isGoLiveEnabled;
      var active := if u.activeSlotId.Some? then Present(Some(u.activeSlotId.value)) else doc.activeSlotId;
      Written(AdminDoc(true, goLive, active), [])
  }

  /** No write from this client ever creates the admin-state document. */
  lemma UpdateNeverCreates(doc: AdminDoc, u: AdminUpdate, outcome: WriteOutcome)
    ensures UpdateAdminState(doc, u, outcome).doc.docExists == doc.docExists
  {
  }

  /**
    Cross-session convergence: once one session's write of the Go-Live flag is accepted, another
    session that applies the resulting snapshot holds the same flag (and the same active slot,
    when one was written). Applying a snapshot returns only a store: nothing is re-sent.
  */
  lemma RemoteWriteIsObserved(doc: AdminDoc, u: AdminUpdate, other: Store, now: int, nonce: string)
    requires doc.docExists && u.isGoLiveEnabled.Some?
    ensures var w := UpdateAdminState(doc, u, Accepted);
      var r := ApplySnapshot(other, w.doc, now, nonce);
      && r.admin.isGoLiveEnabled == u.isGoLiveEnabled.value
      && (u.activeSlotId.Some? ==> r.admin.activeSlotId == u.activeSlotId)
      && r.admin.slots == other.admin.slots
  {
  }

  /** A log document written by `logEvent`; the attendee count is `undefined` when absent. */
  datatype RemoteLog = RemoteLog(slotId: string, timestamp: int, event: string, details: string, attendeeCount: Option<int>)

  /** The `logs` collection: documents by id. */
  type LogDocs = map<string, RemoteLog>

  /**
    `logEvent`: an `updateDoc` of document `id` in the `logs` collection. It fails when that
    document does not exist, and when the count is `undefined` (an unsupported field value under
    the default settings of `getFirestore`); otherwise the transport decides. An accepted write
    overwrites the document's fields; a failure is reported on the console and swallowed.
  */
  function LogEvent(docs: LogDocs, id: string, slotId: string, event: string, details: string,
                    attendeeCount: Option<int>, now: int, outcome: WriteOutcome)
    : (r: (LogDocs, seq<string>))
    ensures id !in docs || attendeeCount.None? || outcome.Rejected? ==> r == (docs, [LogFailedMessage])
    ensures id in docs && attendeeCount.Some? && outcome.Accepted? ==>
      && r.0 == docs[id := RemoteLog(slotId, now, event, details, attendeeCount)]
      && r.1 == []
    ensures r.0.Keys == docs.Keys
  {
    if id !in docs || attendeeCount.None? || outcome.Rejected? then (docs, [LogFailedMessage])
    else (docs[id := RemoteLog(slotId, now, event, details, attendeeCount)], [])
  }

  /**
    The id `logEvent` generates (`Date.now()` and a random suffix) names a document that does
    not exist yet, so the write always fails: the collection is unchanged and the failure is reported.
  */
  lemma FreshLogIdNeverStored(docs: LogDocs, id: string, slotId: string, event: string, details: string,
                              attendeeCount: Option<int>, now: int, outcome: WriteOutcome)
    requires id !in docs
    ensures LogEvent(docs, id, slotId, event, details, attendeeCount, now, outcome) == (docs, [LogFailedMessage])
  {
  }

  /** The manager's `unsubscribe` handle, and the listeners the transport holds open. */
  datatype Sync = Sync(unsubscribe: Option<nat>, openListeners: set<nat>)

  /**
    `initializeRealtimeSync`: a successful subscription registers listener `handle` and keeps
    its unsubscribe function; a failed one is reported and leaves everything as it was.
  */
  function InitializeRealtimeSync(s: Sync, handle: nat, subscribed: bool): (r: Sync)
    ensures subscribed ==> r.unsubscribe == Some(handle) && r.openListeners == s.openListeners + {handle}
    ensures !subscribed ==> r == s
  {
    if subscribed then Sync(Some(handle), s.openListeners + {handle}) else s
  }

  /** Result of `cleanup`: the new state and the listener whose unsubscribe was called, if any. */
  datatype Cleaned = Cleaned(sync: Sync, unsubscribed: Option<nat>)

  function Cleanup(s: Sync): (r: Cleaned)
    ensures r.sync.unsubscribe.None?
    ensures r.unsubscribed == s.unsubscribe
    ensures s.unsubscribe.Some? ==> r.sync.openListeners == s.openListeners - {s.unsubscribe.value}
    ensures s.unsubscribe.None? ==> r.sync == s
  {
    match s.unsubscribe
    case None => Cleaned(s, None)
    case Some(h) => Cleaned(Sync(None, s.openListeners - {h}), Some(h))
  }

  /** A second cleanup calls nothing and changes nothing. */
  lemma CleanupIdempotent(s: Sync)
    ensures Cleanup(Cleanup(s).sync).unsubscribed.None?
    ensures Cleanup(Cleanup(s).sync).sync == Cleanup(s).sync
  {
  }

  /** Subscribing with a fresh listener and cleaning up leaves no listener behind. */
  lemma SubscribeThenCleanupLeavesNone(s: Sync, handle: nat)
    requires s.unsubscribe.None? && handle !in s.openListeners
    ensures Cleanup(InitializeRealtimeSync(s, handle, true)).sync == s
  {
  }

  /**
    Initializing twice overwrites the first unsubscribe function, so cleanup then closes only
    the second listener and the first stays open.
  */
  lemma DoubleInitializeLeaksFirst(s: Sync, h1: nat, h2: nat)
    requires h1 != h2
    ensures var r := Cleanup(InitializeRealtimeSync(InitializeRealtimeSync(s, h1, true), h2, true));
      h1 in r.sync.openListeners && h2 !in r.sync.openListeners
  {
  }
}

=== FILE: sample_data.dfy ===
/**
  The demo data: three webinar slots scheduled relative to the moment the data is built, and
  the live-session configuration for each of them.
*/
module SampleData {
  import opened WebinarTypes
  import opened Text
  import Utils

  const ZoomHost := "https://zoom.us"

  /** A join URL of the live-session host: the meeting number after "/j/", then the password query. */
  function JoinUrl(meetingNumber: string, password: string): string {
    ZoomHost + "/j/" + meetingNumber + "?pwd=" + password
  }

  /** A replay session page of the replay host. */
  function SessionUrl(session: string): string {
    "https://demo.everwebinar.com/session/" + session
  }

  /** A slot's display name: the time of day, then the topic. */
  function WebinarName(part: string, topic: string): string {
    part + " Webinar - " + topic
  }

  /** A demo slot: it starts in replay, active, with nobody attending yet. */
  function DemoSlot(id: string, name: string, everwebinarUrl: string, zoomUrl: string, start: int, switchAt: int): WebinarSlot {
    WebinarSlot(id, name, everwebinarUrl, zoomUrl, Valid(start), Valid(switchAt), true, Replay, 0, None)
  }

  /** `sampleWebinarSlots`, built at instant `now`. */
  function SampleWebinarSlots(now: int): (r: seq<WebinarSlot>)
    ensures |r| == 3
    ensures forall i :: 0 <= i < |r| ==> r[i].scheduledStartTime.Valid? && r[i].scheduledSwitchTime.Valid?
  {
    [ DemoSlot("morning_sales_training", WebinarName("Morning", "Sales Training"),
        SessionUrl("sales-training-12345"),
        JoinUrl("123456789", "dGVzdHBhc3N3b3Jk"),
        now, now + 75 * Utils.MsPerMinute),
      DemoSlot("afternoon_product_demo", WebinarName("Afternoon", "Product Demo"),
        SessionUrl("product-demo-67890"),
        JoinUrl("987654321", "cHJvZHVjdGRlbW8="),
        now + 4 * Utils.MsPerHour, now + 5 * Utils.MsPerHour + 15 * Utils.MsPerMinute),
      DemoSlot("evening_qna_session", WebinarName("Evening", "Q&A Session"),
        SessionUrl("qna-session-11111"),
        JoinUrl("555666777", "cW5hc2Vzc2lvbg=="),
        now + 8 * Utils.MsPerHour, now + 9 * Utils.MsPerHour + 15 * Utils.MsPerMinute) ]
  }

  /** The page the session returns to: the current address, or the local default when there is none. */
  function LeaveUrl(href: Option<string>): (r: string)
    ensures href.Some? && href.value != "" ==> r == href.value
    ensures href.None? || href.value == "" ==> r == "http://localhost:3000"
  {
    if href.Some? && href.value != "" then href.value else "http://localhost:3000"
  }

  /** An attendee's configuration; the user name is the topic followed by " Attendee". */
  function AttendeeConfig(meetingNumber: string, topic: string, passWord: string, leaveUrl: string): ZoomConfig {
    ZoomConfig(meetingNumber, topic + " Attendee", "attendee@example.com", passWord, leaveUrl, AttendeeRole)
  }

  /** `sampleZoomConfigs`, keyed by slot id. */
  function SampleZoomConfigs(href: Option<string>): (r: map<string, ZoomConfig>)
    ensures r.Keys == {"morning_sales_training", "afternoon_product_demo", "evening_qna_session"}
  {
    var leave := LeaveUrl(href);
    map[
      "morning_sales_training" := AttendeeConfig("123456789", "Sales Training", "dGVzdHBhc3N3b3Jk", leave),
      "afternoon_product_demo" := AttendeeConfig("987654321", "Product Demo", "cHJvZHVjdGRlbW8=", leave),
      "evening_qna_session" := AttendeeConfig("555666777", "Q&A Session", "cW5hc2Vzc2lvbg==", leave)]
  }

  /** No two sample slots share an id. */
  lemma SampleIdsDistinct(now: int)
    ensures var r := SampleWebinarSlots(now);
      forall i, j :: 0 <= i < j < |r| ==> r[i].id != r[j].id
  {
    var r := SampleWebinarSlots(now);
    assert r[0].id[0] == 'm' && r[1].id[0] == 'a' && r[2].id[0] == 'e';
  }

  /** Every sample slot starts in replay, active, with no attendees and no switch yet, and switches after it starts. */
  lemma SampleSlotsStartInReplay(now: int)
    ensures forall s :: s in SampleWebinarSlots(now) ==>
      && s.currentMode == Replay && s.attendeeCount == 0 && s.isActive && s.lastSwitchTime.None?
      && s.scheduledStartTime.ms < s.scheduledSwitchTime.ms
  {
  }

  /** The switch comes 75 minutes after the start for every sample slot. */
  lemma SampleSwitchOffsets(now: int)
    ensures forall s :: s in SampleWebinarSlots(now) ==>
      s.scheduledSwitchTime.ms - s.scheduledStartTime.ms == 75 * Utils.MsPerMinute
  {
  }

  /** The join URLs of the sample slots read back as their meeting numbers. */
  lemma JoinUrlsReadBack(meetingNumber: string, password: string)
    requires |meetingNumber| >= 1 && AllDigits(meetingNumber)
    ensures Utils.ExtractZoomMeetingNumber(JoinUrl(meetingNumber, password)) == meetingNumber
  {
    assert 'j' !in ZoomHost;
    var query := "?pwd=" + password;
    assert ZoomHost + "/j/" + meetingNumber + query == JoinUrl(meetingNumber, password);
    Utils.JoinUrlNumber(ZoomHost, meetingNumber, query);
  }

  /** The slot's meeting number, as read from its join URL, is the one its configuration names, for an attendee. */
  predicate MatchesConfig(slot: WebinarSlot, configs: map<string, ZoomConfig>) {
    && slot.id in configs
    && Utils.ExtractZoomMeetingNumber(slot.zoomUrl) == configs[slot.id].meetingNumber
    && configs[slot.id].role == AttendeeRole
  }

  /** A slot joined by `JoinUrl(number, password)` matches a configuration naming `number`. */
  lemma JoinSlotMatches(slot: WebinarSlot, configs: map<string, ZoomConfig>, number: string, password: string)
    requires slot.zoomUrl == JoinUrl(number, password)
    requires |number| >= 1 && AllDigits(number)
    requires slot.id in configs && configs[slot.id].meetingNumber == number && configs[slot.id].role == AttendeeRole
    ensures MatchesConfig(slot, configs)
  {
    JoinUrlsReadBack(number, password);
  }

  lemma MorningSlotMatches(now: int, href: Option<string>)
    ensures MatchesConfig(SampleWebinarSlots(now)[0], SampleZoomConfigs(href))
  {
    var slot := SampleWebinarSlots(now)[0];
    var configs := SampleZoomConfigs(href);
    assert configs[slot.id] == AttendeeConfig("123456789", "Sales Training", "dGVzdHBhc3N3b3Jk", LeaveUrl(href));
    JoinSlotMatches(slot, configs, "123456789", "dGVzdHBhc3N3b3Jk");
  }

  lemma AfternoonSlotMatches(now: int, href: Option<string>)
    ensures MatchesConfig(SampleWebinarSlots(now)[1], SampleZoomConfigs(href))
  {
    var slot := SampleWebinarSlots(now)[1];
    var configs := SampleZoomConfigs(href);
    assert slot.id != "morning_sales_training" by { assert slot.id[0] == 'a'; }
    assert configs[slot.id] == AttendeeConfig("987654321", "Product Demo", "cHJvZHVjdGRlbW8=", LeaveUrl(href));
    JoinSlotMatches(slot, configs, "987654321", "cHJvZHVjdGRlbW8=");
  }

  lemma EveningSlotMatches(now: int, href: Option<string>)
    ensures MatchesConfig(SampleWebinarSlots(now)[2], SampleZoomConfigs(href))
  {
    var slot := SampleWebinarSlots(now)[2];
    var configs := SampleZoomConfigs(href);
    assert slot.id != "morning_sales_training" && slot.id != "afternoon_product_demo" by { assert slot.id[0] == 'e'; }
    assert configs[slot.id] == AttendeeConfig("555666777", "Q&A Session", "cW5hc2Vzc2lvbg==", LeaveUrl(href));
    JoinSlotMatches(slot, configs, "555666777", "cW5hc2Vzc2lvbg==");
  }

  /** Sample slot `i` and the configuration under its id name the same meeting, for an attendee. */
  lemma SlotMatchesConfig(now: int, href: Option<string>, i: nat)
    requires i < 3
    ensures MatchesConfig(SampleWebinarSlots(now)[i], SampleZoomConfigs(href))
  {
    if i == 0 {
      MorningSlotMatches(now, href);
    } else if i == 1 {
      AfternoonSlotMatches(now, href);
    } else {
      EveningSlotMatches(now, href);
    }
  }

  /** Each slot's meeting number, as read from its join URL, is the one its configuration names; every configuration is an attendee's. */
  lemma SampleConfigsMatchSlots(now: int, href: Option<string>)
    ensures forall i :: 0 <= i < |SampleWebinarSlots(now)| ==> MatchesConfig(SampleWebinarSlots(now)[i], SampleZoomConfigs(href))
  {
    forall i | 0 <= i < 3 ensures MatchesConfig(SampleWebinarSlots(now)[i], SampleZoomConfigs(href)) {
      SlotMatchesConfig(now, href, i);
    }
  }
}

=== FILE: store.dfy ===
/**
  The shared webinar store: the admin state (Go-Live flag, active slot, slot registry,
  activity log) plus the one global transition record. Every action is a pure
  state-to-state function; generated log ids take their random part as a parameter.
*/
module WebinarStore {
  import opened WebinarTypes

  /** Capacity of the activity log: only the most recent entries are kept. */
  const MaxLogs := 100
  const LogIdPrefix := "log_"
  /** Attribution of a log entry made while no slot is active. */
  const SystemSlotId := "system"

  datatype Store = Store(admin: AdminState, transitionState: TransitionState)

  const IdleTransition := TransitionState(false, "", Replay)

  const InitialStore := Store(AdminState(false, None, [], []), IdleTransition)

  /**
    `after` is `before` with exactly `log` appended last; the oldest entries are evicted
    so that at most MaxLogs remain, and the survivors keep their order.
  */
  predicate AppendedOne(before: seq<WebinarLog>, after: seq<WebinarLog>, log: WebinarLog) {
    && |after| == Min(|before| + 1, MaxLogs)
    && after[|after| - 1] == log
    && after[..|after| - 1] == before[|before| - (|after| - 1)..]
  }

  /** Nothing but the log differs between the two stores. */
  predicate SameExceptLogs(s: Store, r: Store) {
    r.admin.(logs := s.admin.logs) == s.admin && r.transitionState == s.transitionState
  }

  /** The last `n` elements of `xs` (all of them when there are fewer), JavaScript's `slice(-n)`. */
  function KeepLast<T>(xs: seq<T>, n: nat): (r: seq<T>)
    ensures |r| == Min(|xs|, n)
    ensures r == xs[|xs| - |r|..]
  {
    if |xs| <= n then xs else xs[|xs| - n..]
  }

  /** Appending one record and keeping the last MaxLogs is an `AppendedOne` step. */
  lemma KeepLastAppendedOne(xs: seq<WebinarLog>, x: WebinarLog)
    ensures AppendedOne(xs, KeepLast(xs + [x], MaxLogs), x)
    ensures |xs| < MaxLogs ==> KeepLast(xs + [x], MaxLogs) == xs + [x]
    ensures |xs| == MaxLogs ==> KeepLast(xs + [x], MaxLogs) == xs[1..] + [x]
  {
    var ys := xs + [x];
    var r := KeepLast(ys, MaxLogs);
    assert r[..|r| - 1] == ys[|ys| - |r|..|ys| - 1];
    assert ys[|ys| - |r|..|ys| - 1] == xs[|xs| - (|r| - 1)..];
  }

  function AddLog(s: Store, entry: LogEntry, nonce: string): (r: Store)
    ensures AppendedOne(s.admin.logs, r.admin.logs, WebinarLog(LogIdPrefix + nonce, entry))
    ensures |s.admin.logs| < MaxLogs ==> r.admin.logs == s.admin.logs + [WebinarLog(LogIdPrefix + nonce, entry)]
    ensures |s.admin.logs| == MaxLogs ==> r.admin.logs == s.admin.logs[1..] + [WebinarLog(LogIdPrefix + nonce, entry)]
    ensures SameExceptLogs(s, r)
  {
    var log := WebinarLog(LogIdPrefix + nonce, entry);
    KeepLastAppendedOne(s.admin.logs, log);
    s.(admin := s.admin.(logs := KeepLast(s.admin.logs + [log], MaxLogs)))
  }

  /** `activeSlotId || 'system'`: a missing or empty active slot id attributes to the system. */
  function LogAttribution(activeSlotId: Option<string>): (r: string)
    ensures r != ""
    ensures activeSlotId.Some? && activeSlotId.value != "" ==> r == activeSlotId.value
    ensures activeSlotId.None? || activeSlotId.value == "" ==> r == SystemSlotId
  {
    if activeSlotId.Some? && activeSlotId.value != "" then activeSlotId.value else SystemSlotId
  }

  function GoLiveDetails(enabled: bool): string {
    if enabled then "Go Live enabled" else "Go Live disabled"
  }

  /** The log entry `setGoLiveEnabled(enabled)` appends at time `now`. */
  function GoLiveLog(activeSlotId: Option<string>, enabled: bool, now: int): LogEntry {
    LogEntry(LogAttribution(activeSlotId), now, AdminAction, GoLiveDetails(enabled), None)
  }

  function SetGoLiveEnabled(s: Store, enabled: bool, now: int, nonce: string): (r: Store)
    ensures r.admin.isGoLiveEnabled == enabled
    ensures AppendedOne(s.admin.logs, r.admin.logs, WebinarLog(LogIdPrefix + nonce, GoLiveLog(s.admin.activeSlotId, enabled, now)))
    ensures var e := r.admin.logs[|r.admin.logs| - 1].entry;
      && e.event == AdminAction
      && e.details == (if enabled then "Go Live enabled" else "Go Live disabled")
      && (s.admin.activeSlotId.Some? && s.admin.activeSlotId.value != "" ==> e.slotId == s.admin.activeSlotId.value)
      && (s.admin.activeSlotId.None? || s.admin.activeSlotId.value == "" ==> e.slotId == "system")
    ensures r.admin.activeSlotId == s.admin.activeSlotId && r.admin.slots == s.admin.slots
    ensures r.transitionState == s.transitionState
  {
    var s1 := s.(admin := s.admin.(isGoLiveEnabled := enabled));
    AddLog(s1, GoLiveLog(s1.admin.activeSlotId, enabled, now), nonce)
  }

  function SetActiveSlot(s: Store, slotId: Option<string>): (r: Store)
    ensures r.admin.activeSlotId == slotId
    ensures r.admin.(activeSlotId := s.admin.activeSlotId) == s.admin
    ensures r.transitionState == s.transitionState
  {
    s.(admin := s.admin.(activeSlotId := slotId))
  }

  /** A partial slot: the id to match and the fields to overwrite (`None` = not supplied). */
  datatype SlotPatch = SlotPatch(
    id: string,
    name: Option<string>,
    everwebinarUrl: Option<string>,
    zoomUrl: Option<string>,
    scheduledStartTime: Option<Date>,
    scheduledSwitchTime: Option<Date>,
    isActive: Option<bool>,
    currentMode: Option<Mode>,
    attendeeCount: Option<int>,
    lastSwitchTime: Option<int>)

  function Pick<T>(supplied: Option<T>, current: T): T {
    if supplied.Some? then supplied.value else current
  }

  /** `{ ...slot, ...patch }`: the supplied fields replace the slot's, the others stay. */
  function MergePatch(slot: WebinarSlot, p: SlotPatch): (r: WebinarSlot)
    ensures r.id == p.id
    ensures p.name.Some? ==> r.name == p.name.value
    ensures p.name.None? ==> r.name == slot.name
    ensures p.everwebinarUrl.Some? ==> r.everwebinarUrl == p.everwebinarUrl.value
    ensures p.everwebinarUrl.None? ==> r.everwebinarUrl == slot.everwebinarUrl
    ensures p.zoomUrl.Some? ==> r.zoomUrl == p.zoomUrl.value
    ensures p.zoomUrl.None? ==> r.zoomUrl == slot.zoomUrl
    ensures p.scheduledStartTime.Some? ==> r.scheduledStartTime == p.scheduledStartTime.value
    ensures p.scheduledStartTime.None? ==> r.scheduledStartTime == slot.scheduledStartTime
    ensures p.scheduledSwitchTime.Some? ==> r.scheduledSwitchTime == p.scheduledSwitchTime.value
    ensures p.scheduledSwitchTime.None? ==> r.scheduledSwitchTime == slot.scheduledSwitchTime
    ensures p.isActive.Some? ==> r.isActive == p.isActive.value
    ensures p.isActive.None? ==> r.isActive == slot.isActive
    ensures p.currentMode.Some? ==> r.currentMode == p.currentMode.value
    ensures p.currentMode.None? ==> r.currentMode == slot.currentMode
    ensures p.attendeeCount.Some? ==> r.attendeeCount == p.attendeeCount.value
    ensures p.attendeeCount.None? ==> r.attendeeCount == slot.attendeeCount
    ensures p.lastSwitchTime.Some? ==> r.lastSwitchTime == Some(p.lastSwitchTime.value)
    ensures p.lastSwitchTime.None? ==> r.lastSwitchTime == slot.lastSwitchTime
  {
    WebinarSlot(
      p.id,
      Pick(p.name, slot.name),
      Pick(p.everwebinarUrl, slot.everwebinarUrl),
      Pick(p.zoomUrl, slot.zoomUrl),
      Pick(p.scheduledStartTime, slot.scheduledStartTime),
      Pick(p.scheduledSwitchTime, slot.scheduledSwitchTime),
      Pick(p.isActive, slot.isActive),
      Pick(p.currentMode, slot.currentMode),
      Pick(p.attendeeCount, slot.attendeeCount),
      if p.lastSwitchTime.Some? then Some(p.lastSwitchTime.value) else slot.lastSwitchTime)
  }

  /** A patch that supplies no field but the id. */
  function EmptyPatch(id: string): SlotPatch {
    SlotPatch(id, None, None, None, None, None, None, None, None, None)
  }

  function UpdateSlot(s: Store, p: SlotPatch): (r: Store)
    ensures |r.admin.slots| == |s.admin.slots|
    ensures forall i :: 0 <= i < |s.admin.slots| && s.admin.slots[i].id == p.id ==>
      r.admin.slots[i] == MergePatch(s.admin.slots[i], p)
    ensures forall i :: 0 <= i < |s.admin.slots| && s.admin.slots[i].id != p.id ==>
      r.admin.slots[i] == s.admin.slots[i]
    ensures (forall i :: 0 <= i < |s.admin.slots| ==> s.admin.slots[i].id != p.id) ==> r == s
    ensures r.admin.(slots := s.admin.slots) == s.admin && r.transitionState == s.transitionState
  {
    var slots := s.admin.slots;
    var updated := seq(|slots|, i requires 0 <= i < |slots| =>
      if slots[i].id == p.id then MergePatch(slots[i], p) else slots[i]);
    s.(admin := s.admin.(slots := updated))
  }

  /** A partial transition record (`None` = not supplied). */
  datatype TransitionPatch = TransitionPatch(
    isTransitioning: Option<bool>,
    transitionMessage: Option<string>,
    targetMode: Option<Mode>)

  function SetTransitionState(s: Store, p: TransitionPatch): (r: Store)
    ensures r.admin == s.admin
    ensures r.transitionState.isTransitioning == Pick(p.isTransitioning, s.transitionState.isTransitioning)
    ensures r.transitionState.transitionMessage == Pick(p.transitionMessage, s.transitionState.transitionMessage)
    ensures r.transitionState.targetMode == Pick(p.targetMode, s.transitionState.targetMode)
  {
    var t := s.transitionState;
    s.(transitionState := TransitionState(
      Pick(p.isTransitioning, t.isTransitioning),
      Pick(p.transitionMessage, t.transitionMessage),
      Pick(p.targetMode, t.targetMode)))
  }

  /** A patch supplying all three fields. */
  function FullTransition(t: TransitionState): TransitionPatch {
    TransitionPatch(Some(t.isTransitioning), Some(t.transitionMessage), Some(t.targetMode))
  }

  function InitializeSlots(s: Store, slots: seq<WebinarSlot>): (r: Store)
    ensures r.admin.slots == slots
    ensures r.admin.(slots := s.admin.slots) == s.admin && r.transitionState == s.transitionState
  {
    s.(admin := s.admin.(slots := slots))
  }

  /** Index of the first slot whose id is `id` at or after `from` (`slots.find`); a missing id matches none. */
  function FindSlotIndex(slots: seq<WebinarSlot>, id: Option<string>, from: nat): (r: Option<nat>)
    ensures r.Some? ==> from <= r.value < |slots| && Some(slots[r.value].id) == id
    ensures r.Some? ==> forall j :: from <= j < r.value ==> Some(slots[j].id) != id
    ensures r.None? ==> forall j :: from <= j < |slots| ==> Some(slots[j].id) != id
    decreases |slots| - from
  {
    if from >= |slots| then None
    else if Some(slots[from].id) == id then Some(from)
    else FindSlotIndex(slots, id, from + 1)
  }

  /** Slot `i` is the first slot whose id is `id`. */
  predicate FirstWithId(slots: seq<WebinarSlot>, id: Option<string>, i: int) {
    0 <= i < |slots| && Some(slots[i].id) == id && forall j :: 0 <= j < i ==> Some(slots[j].id) != id
  }

  /** `slots.find(slot => slot.id === id)`: the first slot with the id, if any. */
  function FindSlot(slots: seq<WebinarSlot>, id: Option<string>): (r: Option<WebinarSlot>)
    ensures r.None? <==> forall i :: 0 <= i < |slots| ==> Some(slots[i].id) != id
    ensures r.Some? ==> Some(r.value.id) == id && r.value in slots
    ensures forall i :: FirstWithId(slots, id, i) ==> r == Some(slots[i])
  {
    var k := FindSlotIndex(slots, id, 0);
    if k.Some? then Some(slots[k.value]) else None
  }

  /** Of two slots sharing an id, `find` returns the earlier one. */
  lemma FindSlotPrefersEarlier(before: seq<WebinarSlot>, a: WebinarSlot, middle: seq<WebinarSlot>, b: WebinarSlot, after: seq<WebinarSlot>)
    requires a.id == b.id
    requires forall i :: 0 <= i < |before| ==> before[i].id != a.id
    ensures FindSlot(before + [a] + middle + [b] + after, Some(a.id)) == Some(a)
  {
    var slots := before + [a] + middle + [b] + after;
    assert slots[|before|] == a;
    assert FirstWithId(slots, Some(a.id), |before|);
  }

  /** Appending always leaves the log within capacity, whatever its length before. */
  lemma LogStaysBounded(s: Store, entry: LogEntry, nonce: string)
    ensures |AddLog(s, entry, nonce).admin.logs| <= MaxLogs
    ensures |s.admin.logs| < MaxLogs ==> |AddLog(s, entry, nonce).admin.logs| == |s.admin.logs| + 1
  {
  }

  /** The log records `AddLog` creates from the given entries and random id parts, in order. */
  function Stamped(entries: seq<LogEntry>, nonces: seq<string>): (r: seq<WebinarLog>)
    requires |entries| == |nonces|
    ensures |r| == |entries|
    ensures forall k :: 0 <= k < |r| ==> r[k] == WebinarLog(LogIdPrefix + nonces[k], entries[k])
  {
    seq(|entries|, k requires 0 <= k < |entries| => WebinarLog(LogIdPrefix + nonces[k], entries[k]))
  }

  lemma StampedSnoc(entries: seq<LogEntry>, nonces: seq<string>)
    requires |entries| == |nonces| > 0
    ensures Stamped(entries, nonces) == Stamped(entries[..|entries| - 1], nonces[..|nonces| - 1])
      + [WebinarLog(LogIdPrefix + nonces[|nonces| - 1], entries[|entries| - 1])]
  {
  }

  /** The store after appending each entry in turn. */
  function AddLogs(s: Store, entries: seq<LogEntry>, nonces: seq<string>): Store
    requires |entries| == |nonces|
    decreases |entries|
  {
    if |entries| == 0 then s
    else
      var n := |entries| - 1;
      AddLog(AddLogs(s, entries[..n], nonces[..n]), entries[n], nonces[n])
  }

  /** Truncating before an append and again after is the same as truncating once after it. */
  lemma KeepLastAppend<T>(xs: seq<T>, x: T, n: nat)
    requires n >= 1
    ensures KeepLast(KeepLast(xs, n) + [x], n) == KeepLast(xs + [x], n)
  {
    if |xs| >= n {
      assert KeepLast(xs, n) + [x] == xs[|xs| - n..] + [x];
      assert (xs[|xs| - n..] + [x])[1..] == xs[|xs| - n + 1..] + [x];
      assert (xs + [x])[|xs| + 1 - n..] == xs[|xs| + 1 - n..] + [x];
    }
  }

  /**
    Any run of appends leaves exactly the most recent MaxLogs records of the old log
    followed by the new ones, in append order.
  */
  lemma {:induction false} AddLogsKeepsMostRecent(s: Store, entries: seq<LogEntry>, nonces: seq<string>)
    requires |entries| == |nonces|
    requires |s.admin.logs| <= MaxLogs
    ensures AddLogs(s, entries, nonces).admin.logs == KeepLast(s.admin.logs + Stamped(entries, nonces), MaxLogs)
    decreases |entries|
  {
    if |entries| == 0 {
      assert s.admin.logs + Stamped(entries, nonces) == s.admin.logs;
    } else {
      var n := |entries| - 1;
      var prior := s.admin.logs + Stamped(entries[..n], nonces[..n]);
      var x := WebinarLog(LogIdPrefix + nonces[n], entries[n]);
      AddLogsKeepsMostRecent(s, entries[..n], nonces[..n]);
      var s1 := AddLogs(s, entries[..n], nonces[..n]);
      assert s1.admin.logs == KeepLast(prior, MaxLogs);
      StampedSnoc(entries, nonces);
      assert s.admin.logs + Stamped(entries, nonces) == prior + [x];
      calc {
        AddLogs(s, entries, nonces).admin.logs;
        AddLog(s1, entries[n], nonces[n]).admin.logs;
        KeepLast(s1.admin.logs + [x], MaxLogs);
        { KeepLastAppend(prior, x, MaxLogs); }
        KeepLast(prior + [x], MaxLogs);
      }
    }
  }

  /** Dropping the first stamped record is stamping without the first entry. */
  lemma StampedTail(entries: seq<LogEntry>, nonces: seq<string>)
    requires |entries| == |nonces| > 0
    ensures Stamped(entries, nonces)[1..] == Stamped(entries[1..], nonces[1..])
  {
  }

  /**
    Starting from the empty log, appending one more entry than the capacity evicts exactly
    the first one: the log then holds entries 2 to 101, oldest first.
  */
  lemma OverflowEvictsOldest(entries: seq<LogEntry>, nonces: seq<string>)
    requires |entries| == |nonces| == MaxLogs + 1
    ensures AddLogs(InitialStore, entries, nonces).admin.logs == Stamped(entries[1..], nonces[1..])
  {
    var st := Stamped(entries, nonces);
    var empty: seq<WebinarLog> := [];
    assert InitialStore.admin.logs + st == st by {
      assert InitialStore.admin.logs == empty;
    }
    AddLogsKeepsMostRecent(InitialStore, entries, nonces);
    assert KeepLast(st, MaxLogs) == st[1..];
    StampedTail(entries, nonces);
  }
}

=== FILE: text.dfy ===
/** Character and decimal-text helpers shared by the formatting and URL-parsing code. */
module Text {

  predicate IsDigit(c: char) {
    '0' <= c <= '9'
  }

  predicate AllDigits(s: string) {
    forall i :: 0 <= i < |s| ==> IsDigit(s[i])
  }

  function DigitChar(d: nat): (c: char)
    requires d < 10
    ensures IsDigit(c)
  {
    ('0' as int + d) as char
  }

  function DigitValue(c: char): (d: nat)
    requires IsDigit(c)
    ensures d < 10 && DigitChar(d) == c
  {
    c as int - '0' as int
  }

  /** Decimal text of `n` as JavaScript's `Number.prototype.toString()` writes a non-negative integer. */
  function NatToString(n: nat): (s: string)
    ensures 1 <= |s| && AllDigits(s)
    ensures (|s| == 1) == (n < 10)
    ensures s[0] == '0' ==> n == 0
    decreases n
  {
    if n < 10 then [DigitChar(n)] else NatToString(n / 10) + [DigitChar(n % 10)]
  }

  /** Value of a string of decimal digits, most significant first; the empty string reads as 0. */
  function ParseNat(s: string): nat
    requires AllDigits(s)
  {
    if |s| == 0 then 0 else 10 * ParseNat(s[..|s| - 1]) + DigitValue(s[|s| - 1])
  }

  /** Reading the decimal text of `n` gives `n` back. */
  lemma {:induction false} ParseNatToString(n: nat)
    ensures ParseNat(NatToString(n)) == n
    decreases n
  {
    if n >= 10 {
      var s := NatToString(n);
      assert s[..|s| - 1] == NatToString(n / 10);
      ParseNatToString(n / 10);
    }
  }

  /** A leading zero does not change the value of a digit string. */
  lemma {:induction false} ParseNatLeadingZero(s: string)
    requires AllDigits(s)
    ensures AllDigits("0" + s) && ParseNat("0" + s) == ParseNat(s)
    decreases |s|
  {
    var t := "0" + s;
    assert forall i :: 0 <= i < |t| ==> t[i] == (if i == 0 then '0' else s[i - 1]);
    if |s| > 0 {
      assert t[..|t| - 1] == "0" + s[..|s| - 1];
      ParseNatLeadingZero(s[..|s| - 1]);
    }
  }

  /** JavaScript's `padStart(2, '0')`: zeros are added on the left up to two characters; longer text is kept whole. */
  function PadStart2(s: string): (r: string)
    ensures |r| == if |s| < 2 then 2 else |s|
    ensures r[|r| - |s|..] == s
    ensures forall i :: 0 <= i < |r| - |s| ==> r[i] == '0'
  {
    if |s| >= 2 then s else if |s| == 1 then "0" + s else "00"
  }

  /** `n.toString().padStart(2, '0')`: at least two digits, reading back as `n`. */
  function TwoDigits(n: nat): (r: string)
    ensures |r| >= 2 && AllDigits(r) && ParseNat(r) == n
    ensures n < 10 ==> r == ['0', DigitChar(n)]
    ensures n >= 10 ==> r == NatToString(n)
    ensures n < 100 <==> |r| == 2
  {
    var s := NatToString(n);
    ParseNatToString(n);
    if |s| < 2 then
      ParseNatLeadingZero(s);
      PadStart2(s)
    else
      PadStart2(s)
  }
}

=== FILE: utils.dfy ===
/**
  Pure helpers of lib/utils.ts. The clock is the parameter `now` (milliseconds), and dates
  are already parsed. The three regular expressions of the meeting-number extractor are
  spelled out as leftmost-match searches with a greedy digit run.
*/
module Utils {
  import opened WebinarTypes
  import opened Text

  const MsPerSecond := 1000
  const MsPerMinute := 60 * 1000
  const MsPerHour := 60 * 60 * 1000

  predicate IsPast(date: Date, now: int) {
    date.Valid? && date.ms < now
  }

  predicate IsFuture(date: Date, now: int) {
    date.Valid? && date.ms > now
  }

  /** A date is never both past and future; an invalid one is neither; a valid one is one of them or exactly now. */
  lemma PastFutureExclusive(date: Date, now: int)
    ensures !(IsPast(date, now) && IsFuture(date, now))
    ensures date.Invalid? ==> !IsPast(date, now) && !IsFuture(date, now)
    ensures date.Valid? ==> IsPast(date, now) || IsFuture(date, now) || date.ms == now
  {
  }

  /** As time goes on, a past date stays past and a date that is still future was future before. */
  lemma PastIsPermanent(date: Date, now: int, later: int)
    requires now <= later
    ensures IsPast(date, now) ==> IsPast(date, later)
    ensures IsFuture(date, later) ==> IsFuture(date, now)
  {
  }

  /** Whole hours and leftover whole minutes of a duration, and the milliseconds left over after them. */
  lemma SplitHours(d: int)
    requires d >= 0
    ensures var h, m := d / MsPerHour, (d % MsPerHour) / MsPerMinute;
      && m < 60
      && h * MsPerHour + m * MsPerMinute <= d < h * MsPerHour + (m + 1) * MsPerMinute
      && d % MsPerMinute == d - h * MsPerHour - m * MsPerMinute
  {
    var r1 := d % 3600000;
    assert d % 60000 == r1 % 60000;
  }

  /** The same split down to leftover whole seconds. */
  lemma SplitSeconds(d: int)
    requires d >= 0
    ensures var h, m, s := d / MsPerHour, (d % MsPerHour) / MsPerMinute, (d % MsPerMinute) / MsPerSecond;
      && m < 60 && s < 60
      && h * MsPerHour + m * MsPerMinute + s * MsPerSecond <= d
      && d < h * MsPerHour + m * MsPerMinute + s * MsPerSecond + MsPerSecond
  {
    SplitHours(d);
  }

  /** Time left before a deadline: nothing, or whole hours and the leftover whole minutes. */
  datatype Remaining = Passed | Left(hours: nat, minutes: nat)

  function SplitRemaining(diff: int): (r: Remaining)
    ensures r.Passed? <==> diff <= 0
    ensures r.Left? ==> r.minutes < 60
    ensures r.Left? ==> r.hours * MsPerHour + r.minutes * MsPerMinute <= diff
    ensures r.Left? ==> diff < r.hours * MsPerHour + (r.minutes + 1) * MsPerMinute
  {
    if diff <= 0 then Passed
    else
      SplitHours(diff);
      Left(diff / MsPerHour, (diff % MsPerHour) / MsPerMinute)
  }

  function RemainingText(r: Remaining): string {
    match r
    case Passed => "Time has passed"
    case Left(h, m) =>
      if h > 0 then NatToString(h) + "h " + NatToString(m) + "m remaining"
      else NatToString(m) + "m remaining"
  }

  /** `getTimeRemaining` with the current time as a parameter. */
  function GetTimeRemaining(date: Date, now: int): (r: string)
    ensures date.Invalid? ==> r == "Invalid date"
    ensures date.Valid? && date.ms <= now ==> r == "Time has passed"
    ensures date.Valid? && date.ms > now ==>
      && |r| >= |"m remaining"| && r[|r| - |"m remaining"|..] == "m remaining"
      && ('h' in r <==> date.ms - now >= MsPerHour)
  {
    if date.Invalid? then "Invalid date"
    else
      var r := SplitRemaining(date.ms - now);
      var text := RemainingText(r);
      if r.Left? then
        NoHourMark(NatToString(r.minutes));
        if r.hours > 0 then
          NoHourMark(NatToString(r.hours));
          assert text == NatToString(r.hours) + "h " + NatToString(r.minutes) + "m remaining";
          assert text[|NatToString(r.hours)|] == 'h';
          text
        else
          assert 'h' !in "m remaining";
          text
      else
        text
  }

  /**
    A future deadline reads "<h>h <m>m remaining", or "<m>m remaining" when less than an hour is
    left, where h whole hours and m < 60 whole minutes fit in the time left and one more minute
    would not.
  */
  lemma TimeRemainingText(date: Date, now: int)
    requires date.Valid? && date.ms > now
    ensures exists h: nat, m: nat ::
      && m < 60
      && h * MsPerHour + m * MsPerMinute <= date.ms - now < h * MsPerHour + (m + 1) * MsPerMinute
      && GetTimeRemaining(date, now) == (if h > 0 then NatToString(h) + "h " else "") + NatToString(m) + "m remaining"
  {
    var r := SplitRemaining(date.ms - now);
    var h, m := r.hours, r.minutes;
    assert GetTimeRemaining(date, now) == RemainingText(r);
    assert m < 60 && h * MsPerHour + m * MsPerMinute <= date.ms - now < h * MsPerHour + (m + 1) * MsPerMinute;
    LeftTextForm(h, m);
    assert GetTimeRemaining(date, now) == (if h > 0 then NatToString(h) + "h " else "") + NatToString(m) + "m remaining";
  }

  /** The text of a future deadline, with the hour part present exactly when there are whole hours. */
  lemma LeftTextForm(h: nat, m: nat)
    ensures RemainingText(Left(h, m)) == (if h > 0 then NatToString(h) + "h " else "") + NatToString(m) + "m remaining"
  {
    if h == 0 {
      assert "" + NatToString(m) == NatToString(m);
    }
  }

  /** Digits never include the hour mark. */
  lemma NoHourMark(s: string)
    requires AllDigits(s)
    ensures 'h' !in s
  {
  }

  // ---- meeting-number extraction ----

  /** Does `marker` occur at `i`, immediately followed by a digit? */
  predicate MarkerWithDigitAt(s: string, marker: string, i: nat) {
    i + |marker| < |s| && s[i..i + |marker|] == marker && IsDigit(s[i + |marker|])
  }

  /** `k` is the leftmost position where `marker` followed by a digit starts. */
  predicate FirstMarkerAt(s: string, marker: string, k: nat) {
    MarkerWithDigitAt(s, marker, k) && forall j :: 0 <= j < k ==> !MarkerWithDigitAt(s, marker, j)
  }

  /** Leftmost position at or after `from` where `marker` followed by a digit starts. */
  function FindMarker(s: string, marker: string, from: nat): (r: Option<nat>)
    ensures r.Some? ==> from <= r.value && MarkerWithDigitAt(s, marker, r.value)
    ensures r.Some? ==> forall j :: from <= j < r.value ==> !MarkerWithDigitAt(s, marker, j)
    ensures r.None? ==> forall j :: from <= j ==> !MarkerWithDigitAt(s, marker, j)
    decreases |s| - from
  {
    if from + |marker| >= |s| then None
    else if MarkerWithDigitAt(s, marker, from) then Some(from)
    else FindMarker(s, marker, from + 1)
  }

  /** The search from the start finds exactly the leftmost marker position. */
  lemma FindMarkerIsFirst(s: string, marker: string)
    ensures forall k: nat :: FirstMarkerAt(s, marker, k) ==> FindMarker(s, marker, 0) == Some(k)
  {
  }

  /** Do nine digits start at `i`? */
  predicate NineDigitsAt(s: string, i: nat) {
    i + 9 <= |s| && AllDigits(s[i..i + 9])
  }

  /** `k` is the leftmost position where nine digits start. */
  predicate FirstNineDigitsAt(s: string, k: nat) {
    NineDigitsAt(s, k) && forall j :: 0 <= j < k ==> !NineDigitsAt(s, j)
  }

  /** Leftmost position at or after `from` where nine digits start. */
  function FindNineDigits(s: string, from: nat): (r: Option<nat>)
    ensures r.Some? ==> from <= r.value && NineDigitsAt(s, r.value)
    ensures r.Some? ==> forall j :: from <= j < r.value ==> !NineDigitsAt(s, j)
    ensures r.None? ==> forall j :: from <= j ==> !NineDigitsAt(s, j)
    decreases |s| - from
  {
    if from + 9 > |s| then None
    else if NineDigitsAt(s, from) then Some(from)
    else FindNineDigits(s, from + 1)
  }

  /** The search from the start finds exactly the leftmost start of nine digits. */
  lemma FindNineDigitsIsFirst(s: string)
    ensures forall k: nat :: FirstNineDigitsAt(s, k) ==> FindNineDigits(s, 0) == Some(k)
  {
  }

  /** Length of the longest run of digits starting at `j` (what a greedy `\d+` consumes). */
  function DigitRunLength(s: string, j: nat): (n: nat)
    requires j <= |s|
    ensures j + n <= |s| && AllDigits(s[j..j + n])
    ensures j + n == |s| || !IsDigit(s[j + n])
    decreases |s| - j
  {
    if j < |s| && IsDigit(s[j]) then
      var n := DigitRunLength(s, j + 1);
      assert s[j..j + 1 + n] == [s[j]] + s[j + 1..j + 1 + n];
      1 + n
    else 0
  }

  function DigitRun(s: string, j: nat): (r: string)
    requires j <= |s|
    ensures AllDigits(r)
    ensures (j < |s| && IsDigit(s[j])) ==> |r| >= 1
  {
    s[j..j + DigitRunLength(s, j)]
  }

  /** The capture of `/\/j\/(\d+)/`: the digits after the first "/j/" that is followed by one. */
  function JoinPathNumber(url: string): (r: Option<string>)
    ensures r.None? <==> forall j :: !MarkerWithDigitAt(url, "/j/", j)
    ensures r.Some? ==> |r.value| >= 1 && AllDigits(r.value)
  {
    var m := FindMarker(url, "/j/", 0);
    if m.Some? then Some(DigitRun(url, m.value + 3)) else None
  }

  /** The second and third patterns of `extractZoomMeetingNumber`, tried once "/j/" has failed. */
  function FallbackNumber(url: string): (r: string)
    ensures r == "" || AllDigits(r)
    ensures r == "" <==>
      && (forall j :: !MarkerWithDigitAt(url, "meeting/", j))
      && (forall j :: !NineDigitsAt(url, j))
    ensures forall k: nat :: FirstMarkerAt(url, "meeting/", k) ==> r == DigitRun(url, k + 8)
    ensures forall k: nat ::
      (forall j :: !MarkerWithDigitAt(url, "meeting/", j)) && FirstNineDigitsAt(url, k) ==>
        r == DigitRun(url, k)
  {
    FindMarkerIsFirst(url, "meeting/");
    FindNineDigitsIsFirst(url);
    var meeting := FindMarker(url, "meeting/", 0);
    if meeting.Some? then DigitRun(url, meeting.value + 8)
    else
      var long := FindNineDigits(url, 0);
      if long.Some? then
        assert IsDigit(url[long.value..long.value + 9][0]);
        DigitRun(url, long.value)
      else ""
  }

  /**
    `extractZoomMeetingNumber`: tries "/j/" + digits, then "meeting/" + digits, then the first
    run of at least nine digits; the first pattern that matches wins, and "" means none did.
  */
  function ExtractZoomMeetingNumber(url: string): (r: string)
    ensures r == "" || AllDigits(r)
    ensures r == "" <==>
      && (forall j :: !MarkerWithDigitAt(url, "/j/", j))
      && (forall j :: !MarkerWithDigitAt(url, "meeting/", j))
      && (forall j :: !NineDigitsAt(url, j))
    ensures (exists j :: MarkerWithDigitAt(url, "/j/", j)) ==> Some(r) == JoinPathNumber(url)
    ensures forall k: nat :: FirstMarkerAt(url, "/j/", k) ==> r == DigitRun(url, k + 3)
    ensures forall k: nat ::
      (forall j :: !MarkerWithDigitAt(url, "/j/", j)) && FirstMarkerAt(url, "meeting/", k) ==>
        r == DigitRun(url, k + 8)
    ensures forall k: nat ::
      && (forall j :: !MarkerWithDigitAt(url, "/j/", j))
      && (forall j :: !MarkerWithDigitAt(url, "meeting/", j))
      && FirstNineDigitsAt(url, k) ==>
        r == DigitRun(url, k)
  {
    FindMarkerIsFirst(url, "/j/");
    var join := FindMarker(url, "/j/", 0);
    if join.Some? then DigitRun(url, join.value + 3) else FallbackNumber(url)
  }

  /** With no 'j' before position `k`, the first "/j/" followed by a digit is the one at `k`. */
  lemma FirstJoinMarker(url: string, k: nat)
    requires MarkerWithDigitAt(url, "/j/", k)
    requires forall i :: 0 <= i < k ==> url[i] != 'j'
    ensures FindMarker(url, "/j/", 0) == Some(k)
  {
    assert url[k] == url[k..k + 3][0] == '/';
    forall j | 0 <= j < k ensures !MarkerWithDigitAt(url, "/j/", j) {
      if j + 3 <= |url| {
        assert url[j..j + 3][1] == url[j + 1];
      }
    }
  }

  /** A run of digits followed by a non-digit (or the end) is exactly what the greedy run takes. */
  lemma DigitRunIs(url: string, k: nat, digits: string)
    requires k + |digits| <= |url| && url[k..k + |digits|] == digits && AllDigits(digits)
    requires k + |digits| == |url| || !IsDigit(url[k + |digits|])
    ensures DigitRun(url, k) == digits
  {
    var n := DigitRunLength(url, k);
    forall i | k <= i < k + |digits| ensures IsDigit(url[i]) {
      assert url[i] == digits[i - k];
    }
    forall i | k <= i < k + n ensures IsDigit(url[i]) {
      assert url[i] == url[k..k + n][i - k];
    }
  }

  /**
    A join URL `p + "/j/" + digits + rest`, where `p` holds no 'j' and `rest` does not continue
    the digits, yields exactly those digits.
  */
  lemma JoinUrlNumber(p: string, digits: string, rest: string)
    requires 'j' !in p
    requires |digits| >= 1 && AllDigits(digits)
    requires rest == [] || !IsDigit(rest[0])
    ensures var url := p + "/j/" + digits + rest;
      JoinPathNumber(url) == Some(digits) && ExtractZoomMeetingNumber(url) == digits
  {
    var url := p + "/j/" + digits + rest;
    var k := |p|;
    assert url[k..k + 3] == "/j/";
    assert url[k + 3] == digits[0];
    assert forall i :: 0 <= i < k ==> url[i] == p[i];
    FirstJoinMarker(url, k);
    assert url[k + 3..k + 3 + |digits|] == digits;
    assert k + 3 + |digits| < |url| ==> url[k + 3 + |digits|] == rest[0];
    DigitRunIs(url, k + 3, digits);
  }

  /** A marker holding a character the text lacks occurs nowhere in it. */
  lemma MarkerAbsent(url: string, marker: string, i: nat)
    requires i < |marker| && marker[i] !in url
    ensures forall j :: !MarkerWithDigitAt(url, marker, j)
  {
    forall j: nat ensures !MarkerWithDigitAt(url, marker, j) {
      if j + |marker| < |url| {
        assert url[j..j + |marker|][i] == url[j + i] && url[j + i] in url;
      }
    }
  }

  /** Digits never include a letter of the markers. */
  lemma DigitsHoldNoLetter(digits: string, c: char)
    requires AllDigits(digits) && !IsDigit(c)
    ensures c !in digits
  {
  }

  /**
    A URL `p + "meeting/" + digits + rest`, with no 'j' outside the digits, no 'g' in `p`, and
    `rest` not continuing the digits, yields exactly those digits: the second pattern is used
    when the first finds nothing.
  */
  lemma MeetingUrlNumber(p: string, digits: string, rest: string)
    requires 'j' !in p && 'j' !in rest && 'g' !in p
    requires |digits| >= 1 && AllDigits(digits)
    requires rest == [] || !IsDigit(rest[0])
    ensures ExtractZoomMeetingNumber(p + "meeting/" + digits + rest) == digits
  {
    var url := p + "meeting/" + digits + rest;
    var k := |p|;
    DigitsHoldNoLetter(digits, 'j');
    assert 'j' !in url;
    MarkerAbsent(url, "/j/", 1);
    assert url[k..k + 8] == "meeting/";
    assert url[k + 8] == digits[0];
    forall j: nat | j < k ensures !MarkerWithDigitAt(url, "meeting/", j) {
      if j + 8 < |url| {
        assert url[j..j + 8][6] == url[j + 6];
        if j + 6 < k {
          assert url[j + 6] == p[j + 6];
        } else {
          assert url[j + 6] == "meeting/"[j + 6 - k];
        }
      }
    }
    assert FirstMarkerAt(url, "meeting/", k);
    assert url[k + 8..k + 8 + |digits|] == digits;
    assert k + 8 + |digits| < |url| ==> url[k + 8 + |digits|] == rest[0];
    DigitRunIs(url, k + 8, digits);
  }

  /**
    A URL `p + digits + rest` with at least nine digits, where neither "/j/" nor "meeting/" can
    occur (no 'j' or 'g' outside the digits), `p` holds no digit and `rest` does not continue the
    digits, yields exactly those digits: the third pattern is used last.
  */
  lemma LongNumberUrlNumber(p: string, digits: string, rest: string)
    requires 'j' !in p && 'j' !in rest && 'g' !in p && 'g' !in rest
    requires forall i :: 0 <= i < |p| ==> !IsDigit(p[i])
    requires |digits| >= 9 && AllDigits(digits)
    requires rest == [] || !IsDigit(rest[0])
    ensures ExtractZoomMeetingNumber(p + digits + rest) == digits
  {
    var url := p + digits + rest;
    var k := |p|;
    DigitsHoldNoLetter(digits, 'j');
    DigitsHoldNoLetter(digits, 'g');
    assert 'j' !in url && 'g' !in url;
    MarkerAbsent(url, "/j/", 1);
    MarkerAbsent(url, "meeting/", 6);
    assert url[k..k + |digits|] == digits;
    assert url[k..k + 9] == digits[..9];
    forall j: nat | j < k ensures !NineDigitsAt(url, j) {
      assert url[j..j + 9][0] == p[j];
    }
    assert FirstNineDigitsAt(url, k);
    assert k + |digits| < |url| ==> url[k + |digits|] == rest[0];
    DigitRunIs(url, k, digits);
  }

  /** A standard join URL reads as the digits after "/j/". */
  lemma JoinExample()
    ensures ExtractZoomMeetingNumber("https://zoom.us/j/123456789?pwd=x") == "123456789"
  {
    assert "https://zoom.us" + "/j/" + "123456789" + "?pwd=x" == "https://zoom.us/j/123456789?pwd=x";
    JoinUrlNumber("https://zoom.us", "123456789", "?pwd=x");
  }

  /** Without "/j/", a "meeting/" URL reads as its digits, however short. */
  lemma MeetingExample()
    ensures ExtractZoomMeetingNumber("https://zoom.us/meeting/12") == "12"
  {
    assert "https://zoom.us/" + "meeting/" + "12" + "" == "https://zoom.us/meeting/12";
    MeetingUrlNumber("https://zoom.us/", "12", "");
  }

  /** With neither marker, the first run of nine or more digits is the number. */
  lemma LongNumberExample()
    ensures ExtractZoomMeetingNumber("https://zoom.us/s/123456789") == "123456789"
  {
    assert "https://zoom.us/s/" + "123456789" + "" == "https://zoom.us/s/123456789";
    LongNumberUrlNumber("https://zoom.us/s/", "123456789", "");
  }
}

=== FILE: webinar_player.dfy ===
/**
  The mode-transition engine of one viewer session. The player holds its own copy of the
  slot's mode and count, and the completion timers started by `triggerTransition`, oldest first
  (they all use the same settle delay, so they fire in that order). Timers and React effect
  re-runs become explicit events. After every change the two effects re-run exactly when one
  of their inputs changed: the scheduled check on the Go-Live flag or the mode, the admin check
  on the flag, the slot being active, or the mode. The scheduled effect is declared first and
  runs first, and both read the values of the same render.
*/
module WebinarPlayer {
  import opened WebinarTypes
  import opened WebinarStore
  import Realtime
  import Utils
  import EverWebinarWrapper

  const ScheduledReason := "Scheduled transition to live session"
  const AdminOnReason := "Admin triggered Go Live"
  const AdminOffReason := "Admin disabled Go Live"

  datatype Player = Player(slot: WebinarSlot, currentMode: Mode, attendeeCount: int, pending: seq<Mode>)

  /** The session's store and its one player. */
  datatype World = World(store: Store, player: Player)

  /** A transition the engine decided to start, with the reason it logs. */
  datatype Request = Request(target: Mode, reason: string)

  predicate IsActiveSlot(w: World) {
    w.store.admin.activeSlotId == Some(w.player.slot.id)
  }

  function TransitionMessage(target: Mode): string {
    "Switching to " + ModeName(target) + " mode..."
  }

  /** The switch instant has been reached (an invalid date never is). */
  predicate SwitchTimeReached(slot: WebinarSlot, now: int) {
    slot.scheduledSwitchTime.Valid? && now >= slot.scheduledSwitchTime.ms
  }

  /** `checkScheduledTransition`: live is requested once the switch time is reached, while in replay with Go-Live off. */
  function CheckScheduled(w: World, now: int): (r: Option<Request>)
    ensures r.Some? <==>
      SwitchTimeReached(w.player.slot, now) && w.player.currentMode == Replay && !w.store.admin.isGoLiveEnabled
    ensures r.Some? ==> r.value == Request(Live, ScheduledReason)
  {
    if SwitchTimeReached(w.player.slot, now) && w.player.currentMode == Replay && !w.store.admin.isGoLiveEnabled
    then Some(Request(Live, ScheduledReason))
    else None
  }

  /** The admin-toggle effect: Go-Live on pulls the active slot to live, Go-Live off pulls it back to replay. */
  function CheckAdmin(w: World): (r: Option<Request>)
    ensures r == Some(Request(Live, AdminOnReason)) <==>
      w.store.admin.isGoLiveEnabled && IsActiveSlot(w) && w.player.currentMode == Replay
    ensures r == Some(Request(Replay, AdminOffReason)) <==>
      !w.store.admin.isGoLiveEnabled && IsActiveSlot(w) && w.player.currentMode == Live
    ensures r.Some? ==> IsActiveSlot(w) && r.value.target != w.player.currentMode
  {
    if w.store.admin.isGoLiveEnabled && IsActiveSlot(w) && w.player.currentMode == Replay then
      Some(Request(Live, AdminOnReason))
    else if !w.store.admin.isGoLiveEnabled && IsActiveSlot(w) && w.player.currentMode == Live then
      Some(Request(Replay, AdminOffReason))
    else None
  }

  /** The scheduled and the admin trigger never fire on the same render. */
  lemma TriggersExclusive(w: World, now: int)
    ensures CheckScheduled(w, now).None? || CheckAdmin(w).None?
  {
  }

  function ModeSwitchLog(w: World, reason: string, now: int): LogEntry {
    LogEntry(w.player.slot.id, now, ModeSwitched, reason, None)
  }

  /**
    The begin phase of `triggerTransition`: the global transition record announces the target,
    one `mode_switched` entry with the reason is logged and a completion timer is started. It
    does not look at whether a transition is already in flight, and the mode is not yet changed.
  */
  function BeginTransition(w: World, req: Request, now: int, nonce: string): (r: World)
    ensures r.store.transitionState == TransitionState(true, TransitionMessage(req.target), req.target)
    ensures AppendedOne(w.store.admin.logs, r.store.admin.logs,
      WebinarLog(LogIdPrefix + nonce, ModeSwitchLog(w, req.reason, now)))
    ensures r.store.admin.(logs := w.store.admin.logs) == w.store.admin
    ensures r.player.pending == w.player.pending + [req.target]
    ensures r.player.(pending := w.player.pending) == w.player
  {
    var s1 := SetTransitionState(w.store, FullTransition(TransitionState(true, TransitionMessage(req.target), req.target)));
    var s2 := AddLog(s1, ModeSwitchLog(w, req.reason, now), nonce);
    World(s2, w.player.(pending := w.player.pending + [req.target]))
  }

  /** Starts the requested transition, if any: queues its target and logs its reason, keeping the earlier records. */
  function Fire(w: World, req: Option<Request>, now: int, nonce: string): (r: World)
    ensures req.None? ==> r == w
    ensures req.Some? ==>
      && r.player.pending == w.player.pending + [req.value.target]
      && r.store.transitionState == TransitionState(true, TransitionMessage(req.value.target), req.value.target)
      && |r.store.admin.logs| == Min(|w.store.admin.logs| + 1, MaxLogs)
    ensures req.Some? ==>
      AppendedOne(w.store.admin.logs, r.store.admin.logs,
        WebinarLog(LogIdPrefix + nonce, ModeSwitchLog(w, req.value.reason, now)))
    ensures r.player.(pending := w.player.pending) == w.player
    ensures r.store.admin.(logs := w.store.admin.logs) == w.store.admin
  {
    if req.Some? then BeginTransition(w, req.value, now, nonce) else w
  }

  /**
    The completion phase: the oldest timer fires, the local mode and the registry entry take its
    target with a fresh switch time, and the one global transition record goes back to idle,
    whose target reads `replay`. With no timer running nothing happens.
  */
  function CompleteTransition(w: World, now: int): (r: World)
    ensures w.player.pending == [] ==> r == w
    ensures w.player.pending != [] ==>
      && r.player == w.player.(currentMode := w.player.pending[0], pending := w.player.pending[1..])
      && r.store.transitionState == TransitionState(false, "", Replay)
      && r.store.admin.(slots := w.store.admin.slots) == w.store.admin
      && |r.store.admin.slots| == |w.store.admin.slots|
      && (forall i :: 0 <= i < |w.store.admin.slots| && w.store.admin.slots[i].id == w.player.slot.id ==>
            r.store.admin.slots[i] == w.store.admin.slots[i].(currentMode := w.player.pending[0], lastSwitchTime := Some(now)))
      && (forall i :: 0 <= i < |w.store.admin.slots| && w.store.admin.slots[i].id != w.player.slot.id ==>
            r.store.admin.slots[i] == w.store.admin.slots[i])
  {
    if w.player.pending == [] then w
    else
      var target := w.player.pending[0];
      var patch := EmptyPatch(w.player.slot.id).(currentMode := Some(target), lastSwitchTime := Some(now));
      var s1 := UpdateSlot(w.store, patch);
      var s2 := SetTransitionState(s1, FullTransition(IdleTransition));
      World(s2, w.player.(currentMode := target, pending := w.player.pending[1..]))
  }

  /** The target an effect queues: its request's target, when the effect runs and requests one. */
  function Queues(run: bool, req: Option<Request>): seq<Mode> {
    if run && req.Some? then [req.value.target] else []
  }

  /** Runs the scheduled effect, then the admin effect, each only when asked to; both decide on `w`. */
  function RunEffects(w: World, scheduled: bool, admin: bool, now: int, nonce: string): (r: World)
    ensures r.player.currentMode == w.player.currentMode
    ensures r.store.admin.(logs := w.store.admin.logs) == w.store.admin
    ensures r.player.pending ==
      w.player.pending + Queues(scheduled, CheckScheduled(w, now)) + Queues(admin, CheckAdmin(w))
  {
    var w1 := if scheduled then Fire(w, CheckScheduled(w, now), now, nonce) else w;
    if admin then Fire(w1, CheckAdmin(w), now, nonce) else w1
  }

  /** One render starts at most one transition, since the two triggers exclude each other. */
  lemma QueuedAtMostOne(w: World, scheduled: bool, admin: bool, now: int)
    ensures Queues(scheduled, CheckScheduled(w, now)) == [] || Queues(admin, CheckAdmin(w)) == []
  {
    TriggersExclusive(w, now);
  }

  /** The scheduled effect's dependencies (the switch time is fixed per player): the Go-Live flag and the mode. */
  predicate ScheduledInputsChanged(before: World, after: World) {
    before.store.admin.isGoLiveEnabled != after.store.admin.isGoLiveEnabled
    || before.player.currentMode != after.player.currentMode
  }

  /** The admin effect's dependencies: the Go-Live flag, whether the slot is active, and the mode. */
  predicate AdminInputsChanged(before: World, after: World) {
    before.store.admin.isGoLiveEnabled != after.store.admin.isGoLiveEnabled
    || IsActiveSlot(before) != IsActiveSlot(after)
    || before.player.currentMode != after.player.currentMode
  }

  /**
    Re-runs the effects whose inputs differ between the render before and the one after a change:
    a change of the active slot alone re-runs only the admin effect, and a change touching no
    input re-runs neither.
  */
  function Rerender(before: World, after: World, now: int, nonce: string): (r: World)
    ensures r.player.pending ==
      after.player.pending
      + Queues(ScheduledInputsChanged(before, after), CheckScheduled(after, now))
      + Queues(AdminInputsChanged(before, after), CheckAdmin(after))
    ensures !AdminInputsChanged(before, after) ==> r == after
    ensures r.player.currentMode == after.player.currentMode
    ensures r.store.admin.(logs := after.store.admin.logs) == after.store.admin
  {
    RunEffects(after, ScheduledInputsChanged(before, after), AdminInputsChanged(before, after), now, nonce)
  }

  /** First render: the player copies the slot's mode and count, then both effects run. */
  function Mount(s: Store, slot: WebinarSlot, now: int, nonce: string): (r: World)
    ensures r.player.currentMode == slot.currentMode && r.player.slot == slot
    ensures r.player.attendeeCount == slot.attendeeCount
    ensures slot.currentMode == Replay && SwitchTimeReached(slot, now) && !s.admin.isGoLiveEnabled ==>
      r.player.pending == [Live] && r.store.transitionState.isTransitioning
    ensures s.admin.activeSlotId == Some(slot.id) && s.admin.isGoLiveEnabled && slot.currentMode == Replay ==>
      r.player.pending == [Live] && r.store.transitionState.isTransitioning
    ensures s.admin.activeSlotId == Some(slot.id) && !s.admin.isGoLiveEnabled && slot.currentMode == Live ==>
      r.player.pending == [Replay] && r.store.transitionState.isTransitioning
    ensures
      (&& !(slot.currentMode == Replay && SwitchTimeReached(slot, now) && !s.admin.isGoLiveEnabled)
       && !(s.admin.activeSlotId == Some(slot.id) && s.admin.isGoLiveEnabled && slot.currentMode == Replay)
       && !(s.admin.activeSlotId == Some(slot.id) && !s.admin.isGoLiveEnabled && slot.currentMode == Live))
      ==> r.player.pending == [] && r.store == s
    ensures r.store.admin.(logs := s.admin.logs) == s.admin
  {
    var w := World(s, Player(slot, slot.currentMode, slot.attendeeCount, []));
    RunEffects(w, true, true, now, nonce)
  }

  /** `handleAttendeeCountChange`: only the local count and the slot's count change. */
  function AttendeeCountChanged(w: World, count: int): (r: World)
    ensures r.player == w.player.(attendeeCount := count)
    ensures r.store.transitionState == w.store.transitionState
    ensures r.store.admin.(slots := w.store.admin.slots) == w.store.admin
    ensures |r.store.admin.slots| == |w.store.admin.slots|
    ensures forall i :: 0 <= i < |w.store.admin.slots| ==>
      r.store.admin.slots[i] ==
        if w.store.admin.slots[i].id == w.player.slot.id
        then w.store.admin.slots[i].(attendeeCount := count)
        else w.store.admin.slots[i]
  {
    var s := UpdateSlot(w.store, EmptyPatch(w.player.slot.id).(attendeeCount := Some(count)));
    World(s, w.player.(attendeeCount := count))
  }

  /**
    A message posted by the replay frame, with the player's `handleAttendeeCountChange` as the
    wrapper's count callback: a count updates the local and registry counts, a button press is
    logged, and anything else changes nothing. The mode and the pending transitions never change.
  */
  function FrameMessage(w: World, frameOrigin: string, m: EverWebinarWrapper.Message, now: int, nonce: string): (r: World)
    ensures EverWebinarWrapper.CountMessage(m, frameOrigin) ==> r == AttendeeCountChanged(w, m.data.count)
    ensures EverWebinarWrapper.CtaMessage(m, frameOrigin) ==>
      && r.player == w.player
      && AppendedOne(w.store.admin.logs, r.store.admin.logs,
           WebinarLog(LogIdPrefix + nonce,
             LogEntry(w.player.slot.id, now, AdminAction,
               EverWebinarWrapper.CtaPrefix + EverWebinarWrapper.CtaName(m.data.ctaName), None)))
    ensures !EverWebinarWrapper.CountMessage(m, frameOrigin) && !EverWebinarWrapper.CtaMessage(m, frameOrigin) ==> r == w
    ensures r.player.currentMode == w.player.currentMode && r.player.pending == w.player.pending
  {
    var h := EverWebinarWrapper.HandleMessage(w.store, w.player.slot.id, frameOrigin, true, m, now, nonce);
    var w1 := w.(store := h.store);
    if h.reported.Some? then AttendeeCountChanged(w1, h.reported.value) else w1
  }

  /** What can happen to a session: timers, store changes from either side, and telemetry. */
  datatype Event =
    | Tick(now: int, nonce: string)
    | GoLiveSet(enabled: bool, now: int, flagNonce: string, nonce: string)
    | ActiveSlotSet(slotId: Option<string>, now: int, nonce: string)
    | RemoteSnapshot(doc: Realtime.AdminDoc, now: int, flagNonce: string, nonce: string)
    | Complete(now: int, nonce: string)
    | AttendeeCount(count: int)

  /** The oldest completion timer fires, and the render that follows re-runs the effects. */
  function CompleteStep(w: World, now: int, nonce: string): World {
    Rerender(w, CompleteTransition(w, now), now, nonce)
  }

  /** One event and the render after it: the player keeps its slot and the registry keeps its size and ids. */
  function Step(w: World, e: Event): (r: World)
    ensures r.player.slot == w.player.slot
    ensures |r.store.admin.slots| == |w.store.admin.slots|
    ensures forall i :: 0 <= i < |w.store.admin.slots| ==> r.store.admin.slots[i].id == w.store.admin.slots[i].id
  {
    match e
    case Tick(now, nonce) =>
      Fire(w, CheckScheduled(w, now), now, nonce)
    case GoLiveSet(enabled, now, flagNonce, nonce) =>
      Rerender(w, w.(store := SetGoLiveEnabled(w.store, enabled, now, flagNonce)), now, nonce)
    case ActiveSlotSet(slotId, now, nonce) =>
      Rerender(w, w.(store := SetActiveSlot(w.store, slotId)), now, nonce)
    case RemoteSnapshot(doc, now, flagNonce, nonce) =>
      Rerender(w, w.(store := Realtime.ApplySnapshot(w.store, doc, now, flagNonce)), now, nonce)
    case Complete(now, nonce) =>
      CompleteStep(w, now, nonce)
    case AttendeeCount(count) =>
      AttendeeCountChanged(w, count)
  }

  /** A sequence of events, in order: the player's slot and the registry's ids survive any run. */
  function Run(w: World, es: seq<Event>): (r: World)
    ensures r.player.slot == w.player.slot
    ensures |r.store.admin.slots| == |w.store.admin.slots|
    ensures forall i :: 0 <= i < |w.store.admin.slots| ==> r.store.admin.slots[i].id == w.store.admin.slots[i].id
    decreases |es|
  {
    if |es| == 0 then w else Run(Step(w, es[0]), es[1..])
  }

  /** Every registry entry of the player's slot shows the player's mode. */
  predicate ModeConsistent(w: World) {
    forall i :: 0 <= i < |w.store.admin.slots| && w.store.admin.slots[i].id == w.player.slot.id ==>
      w.store.admin.slots[i].currentMode == w.player.currentMode
  }

  predicate Invariant(w: World) {
    |w.store.admin.logs| <= MaxLogs && ModeConsistent(w)
  }

  /** A first render on a log within capacity, whose registry entries for the slot show the slot's mode, satisfies the invariant. */
  lemma MountEstablishesInvariant(s: Store, slot: WebinarSlot, now: int, nonce: string)
    requires |s.admin.logs| <= MaxLogs
    requires forall i :: 0 <= i < |s.admin.slots| && s.admin.slots[i].id == slot.id ==> s.admin.slots[i].currentMode == slot.currentMode
    ensures Invariant(Mount(s, slot, now, nonce))
  {
  }

  /** The invariant holds from the first render on, through any run of events. */
  lemma MountThenRunKeepsInvariant(s: Store, slot: WebinarSlot, now: int, nonce: string, es: seq<Event>)
    requires |s.admin.logs| <= MaxLogs
    requires forall i :: 0 <= i < |s.admin.slots| && s.admin.slots[i].id == slot.id ==> s.admin.slots[i].currentMode == slot.currentMode
    ensures Invariant(Run(Mount(s, slot, now, nonce), es))
  {
    MountEstablishesInvariant(s, slot, now, nonce);
    RunKeepsInvariant(Mount(s, slot, now, nonce), es);
  }

  /** The mode changes only when the oldest completion timer fires, and then to that timer's target. */
  lemma ModeChangesOnlyOnCompletion(w: World, e: Event)
    ensures Step(w, e).player.currentMode != w.player.currentMode ==>
      e.Complete? && w.player.pending != [] && Step(w, e).player.currentMode == w.player.pending[0]
  {
    match e {
      case Complete(now, nonce) =>
        var c := CompleteTransition(w, now);
        assert Step(w, e).player.currentMode == c.player.currentMode;
      case _ =>
    }
  }

  lemma FireKeepsInvariant(w: World, req: Option<Request>, now: int, nonce: string)
    requires Invariant(w)
    ensures Invariant(Fire(w, req, now, nonce))
  {
    if req.Some? {
      var r := BeginTransition(w, req.value, now, nonce);
      assert r.store.admin.slots == w.store.admin.slots;
    }
  }

  lemma RerenderKeepsInvariant(before: World, after: World, now: int, nonce: string)
    requires Invariant(after)
    ensures Invariant(Rerender(before, after, now, nonce))
  {
    var goLiveChanged := before.store.admin.isGoLiveEnabled != after.store.admin.isGoLiveEnabled;
    var modeChanged := before.player.currentMode != after.player.currentMode;
    var activeChanged := IsActiveSlot(before) != IsActiveSlot(after);
    var sched := goLiveChanged || modeChanged;
    var w1 := if sched then Fire(after, CheckScheduled(after, now), now, nonce) else after;
    FireKeepsInvariant(after, CheckScheduled(after, now), now, nonce);
    FireKeepsInvariant(w1, CheckAdmin(after), now, nonce);
  }

  lemma CompleteKeepsInvariant(w: World, now: int)
    requires Invariant(w)
    ensures Invariant(CompleteTransition(w, now))
  {
  }

  lemma StepKeepsInvariant(w: World, e: Event)
    requires Invariant(w)
    ensures Invariant(Step(w, e))
  {
    match e {
      case Tick(now, nonce) =>
        FireKeepsInvariant(w, CheckScheduled(w, now), now, nonce);
      case GoLiveSet(enabled, now, flagNonce, nonce) =>
        var after := w.(store := SetGoLiveEnabled(w.store, enabled, now, flagNonce));
        assert Invariant(after);
        RerenderKeepsInvariant(w, after, now, nonce);
      case ActiveSlotSet(slotId, now, nonce) =>
        var after := w.(store := SetActiveSlot(w.store, slotId));
        assert Invariant(after);
        RerenderKeepsInvariant(w, after, now, nonce);
      case RemoteSnapshot(doc, now, flagNonce, nonce) =>
        var after := w.(store := Realtime.ApplySnapshot(w.store, doc, now, flagNonce));
        assert Invariant(after);
        RerenderKeepsInvariant(w, after, now, nonce);
      case Complete(now, nonce) =>
        CompleteKeepsInvariant(w, now);
        RerenderKeepsInvariant(w, CompleteTransition(w, now), now, nonce);
      case AttendeeCount(count) =>
    }
  }

  /** The log stays within capacity and the registry agrees with the player, after any run of events. */
  lemma {:induction false} RunKeepsInvariant(w: World, es: seq<Event>)
    requires Invariant(w)
    ensures Invariant(Run(w, es))
    decreases |es|
  {
    if |es| > 0 {
      StepKeepsInvariant(w, es[0]);
      RunKeepsInvariant(Step(w, es[0]), es[1..]);
    }
  }

  /**
    The events a mounted player meets in the home page as wired: its own interval and timeout,
    and the replay frame's counts. Flag, active-slot and snapshot events need a host that
    subscribes to the shared admin state; the page never does.
  */
  predicate WiredEvent(e: Event) {
    e.Tick? || e.Complete? || e.AttendeeCount?
  }

  /** A wired event leaves the Go-Live flag and the active slot as they were. */
  lemma WiredStepKeepsAdminFlags(w: World, e: Event)
    requires WiredEvent(e)
    ensures Step(w, e).store.admin.isGoLiveEnabled == w.store.admin.isGoLiveEnabled
    ensures Step(w, e).store.admin.activeSlotId == w.store.admin.activeSlotId
  {
  }

  /**
    So in the page as wired, a mounted player sees the flag and the active slot it mounted with:
    after mount the admin trigger can fire again only because the player's own mode changed.
  */
  lemma {:induction false} WiredRunKeepsAdminFlags(w: World, es: seq<Event>)
    requires forall i :: 0 <= i < |es| ==> WiredEvent(es[i])
    ensures Run(w, es).store.admin.isGoLiveEnabled == w.store.admin.isGoLiveEnabled
    ensures Run(w, es).store.admin.activeSlotId == w.store.admin.activeSlotId
    decreases |es|
  {
    if |es| > 0 {
      WiredStepKeepsAdminFlags(w, es[0]);
      WiredRunKeepsAdminFlags(Step(w, es[0]), es[1..]);
    }
  }

  /** Before the switch time, with Go-Live off, a tick starts nothing: the slot stays in replay. */
  lemma TickBeforeSwitchKeepsReplay(w: World, now: int, nonce: string)
    requires w.player.slot.scheduledSwitchTime.Valid? && now < w.player.slot.scheduledSwitchTime.ms
    ensures Step(w, Tick(now, nonce)) == w
  {
  }

  /** Go-Live switched on never starts a transition on a slot that is not the active one. */
  lemma OverrideOnIgnoresInactiveSlot(w: World, now: int, flagNonce: string, nonce: string)
    requires !IsActiveSlot(w)
    ensures Step(w, GoLiveSet(true, now, flagNonce, nonce)).player == w.player
  {
  }

  /** Go-Live switched on while the active slot plays the replay starts exactly one transition to live. */
  lemma OverrideOnStartsOneTransition(w: World, now: int, flagNonce: string, nonce: string)
    requires IsActiveSlot(w) && !w.store.admin.isGoLiveEnabled && w.player.currentMode == Replay
    ensures var r := Step(w, GoLiveSet(true, now, flagNonce, nonce));
      && r.player.pending == w.player.pending + [Live]
      && r.store.transitionState == TransitionState(true, TransitionMessage(Live), Live)
      && r.player.currentMode == Replay
      && r.player.slot == w.player.slot
      && r.store.admin.activeSlotId == w.store.admin.activeSlotId && r.store.admin.isGoLiveEnabled
  {
    var after := w.(store := SetGoLiveEnabled(w.store, true, now, flagNonce));
    assert CheckScheduled(after, now).None?;
    assert CheckAdmin(after) == Some(Request(Live, AdminOnReason));
  }

  /**
    On the active slot with Go-Live off, a scheduled switch to live is followed at once by the
    admin-off trigger: the completion that commits live starts a transition back to replay.
  */
  lemma ScheduledLiveTriggersAdminOff(w: World, now: int, nonce: string)
    requires IsActiveSlot(w) && !w.store.admin.isGoLiveEnabled
    requires w.player.currentMode == Replay && w.player.pending == [Live]
    ensures var r := Step(w, Complete(now, nonce));
      && r.player.currentMode == Live
      && r.player.pending == [Replay]
      && r.store.admin.logs[|r.store.admin.logs| - 1].entry.details == AdminOffReason
  {
    var c := CompleteTransition(w, now);
    assert IsActiveSlot(c) && c.player.currentMode == Live && !c.store.admin.isGoLiveEnabled;
    assert CheckScheduled(c, now).None?;
    assert CheckAdmin(c) == Some(Request(Replay, AdminOffReason));
  }

  function Other(m: Mode): Mode {
    if m == Replay then Live else Replay
  }

  /**
    The flapping state of the active slot with Go-Live off: the player shows `mode` while a
    switch to the other mode is pending.
  */
  predicate Flapping(w: World, slot: WebinarSlot, mode: Mode) {
    && IsActiveSlot(w) && !w.store.admin.isGoLiveEnabled && w.player.slot == slot
    && w.player.currentMode == mode && w.player.pending == [Other(mode)]
  }

  /** Each completion in the flapping state flips the mode and queues the opposite switch. */
  lemma FlapStep(w: World, slot: WebinarSlot, mode: Mode, now: int, nonce: string)
    requires Flapping(w, slot, mode)
    requires SwitchTimeReached(slot, now)
    ensures Flapping(CompleteStep(w, now, nonce), slot, Other(mode))
  {
    var c := CompleteTransition(w, now);
    assert IsActiveSlot(c) && !c.store.admin.isGoLiveEnabled && c.player.pending == [];
    if mode == Replay {
      ScheduledLiveTriggersAdminOff(w, now, nonce);
    } else {
      assert CheckScheduled(c, now) == Some(Request(Live, ScheduledReason));
      assert CheckAdmin(c).None?;
    }
  }

  /** `mode` flipped `n` times. */
  function Flipped(n: nat, mode: Mode): Mode
    decreases n
  {
    if n == 0 then mode else Other(Flipped(n - 1, mode))
  }

  /** An even number of flips is the identity, an odd number the other mode. */
  lemma {:induction false} FlippedParity(n: nat, mode: Mode)
    ensures Flipped(n, mode) == if n % 2 == 0 then mode else Other(mode)
    decreases n
  {
    if n > 0 {
      FlippedParity(n - 1, mode);
    }
  }

  /** Every event is a completion at or after the slot's switch time. */
  predicate CompletionsAfterSwitch(es: seq<Event>, slot: WebinarSlot) {
    forall i :: 0 <= i < |es| ==> es[i].Complete? && SwitchTimeReached(slot, es[i].now)
  }

  /** A run made only of completions, each applied by `step`. */
  function CompleteRun(step: (World, int, string) -> World, w: World, es: seq<Event>): World
    requires forall i :: 0 <= i < |es| ==> es[i].Complete?
    decreases |es|
  {
    if |es| == 0 then w else CompleteRun(step, step(w, es[0].now, es[0].nonce), es[1..])
  }

  lemma {:induction false} RunOfCompletions(w: World, es: seq<Event>)
    requires forall i :: 0 <= i < |es| ==> es[i].Complete?
    ensures Run(w, es) == CompleteRun(CompleteStep, w, es)
    decreases |es|
  {
    if |es| > 0 {
      assert es[0] == Complete(es[0].now, es[0].nonce);
      RunOfCompletions(Step(w, es[0]), es[1..]);
    }
  }

  /** Any step that flips a flapping slot, iterated over completions past the switch time, flips it once per completion. */
  lemma {:induction false} FlapRun(step: (World, int, string) -> World, w: World, slot: WebinarSlot, mode: Mode, es: seq<Event>)
    requires forall v, m, now, nonce :: Flapping(v, slot, m) && SwitchTimeReached(slot, now) ==>
      Flapping(step(v, now, nonce), slot, Other(m))
    requires Flapping(w, slot, mode)
    requires CompletionsAfterSwitch(es, slot)
    ensures Flapping(CompleteRun(step, w, es), slot, Flipped(|es|, mode))
    decreases |es|
  {
    if |es| > 0 {
      assert CompletionsAfterSwitch(es[1..], slot) by {
        forall i | 0 <= i < |es| - 1 ensures es[1..][i] == es[i + 1] {}
      }
      FlapRun(step, step(w, es[0].now, es[0].nonce), slot, Other(mode), es[1..]);
      FlipLast(|es| - 1, mode);
    }
  }

  /**
    On the active slot with Go-Live off, once the switch time has passed the slot never settles:
    every completion flips the mode and starts the opposite switch.
  */
  lemma ActiveSlotNeverSettles(w: World, slot: WebinarSlot, mode: Mode, es: seq<Event>)
    requires Flapping(w, slot, mode)
    requires CompletionsAfterSwitch(es, slot)
    ensures Flapping(Run(w, es), slot, Flipped(|es|, mode))
  {
    RunOfCompletions(w, es);
    forall v, m, now, nonce | Flapping(v, slot, m) && SwitchTimeReached(slot, now)
      ensures Flapping(CompleteStep(v, now, nonce), slot, Other(m))
    {
      FlapStep(v, slot, m, now, nonce);
    }
    FlapRun(CompleteStep, w, slot, mode, es);
  }

  lemma {:induction false} FlipLast(n: nat, mode: Mode)
    ensures Flipped(n, Other(mode)) == Flipped(n + 1, mode)
    decreases n
  {
    if n > 0 {
      FlipLast(n - 1, mode);
    }
  }

  /** After an even number of completions past the switch time the slot is back in replay, never settled in live. */
  lemma ActiveSlotNeverSettlesLive(w: World, es: seq<Event>)
    requires Flapping(w, w.player.slot, Replay)
    requires CompletionsAfterSwitch(es, w.player.slot)
    requires |es| % 2 == 0
    ensures Run(w, es).player.currentMode == Replay && Run(w, es).player.pending == [Live]
  {
    ActiveSlotNeverSettles(w, w.player.slot, Replay, es);
    FlippedParity(|es|, Replay);
  }

  /** A tick at or after the switch time, in replay with Go-Live off, starts the scheduled switch. */
  lemma TickStartsScheduledSwitch(w: World, now: int, nonce: string)
    requires SwitchTimeReached(w.player.slot, now) && w.player.currentMode == Replay && !w.store.admin.isGoLiveEnabled
    ensures var r := Step(w, Tick(now, nonce));
      && r.player.pending == w.player.pending + [Live] && r.player.currentMode == Replay
      && r.player.slot == w.player.slot
      && r.store.admin.(logs := w.store.admin.logs) == w.store.admin
      && r.store.transitionState == TransitionState(true, TransitionMessage(Live), Live)
  {
  }

  /**
    Completing a switch to live while another switch to live is still pending, with Go-Live on:
    the transition record goes back to idle although the second transition has not completed.
  */
  lemma CompletionClearsRecordOfPendingSwitch(w: World, now: int, nonce: string)
    requires IsActiveSlot(w) && w.store.admin.isGoLiveEnabled
    requires w.player.pending == [Live, Live]
    ensures var r := Step(w, Complete(now, nonce));
      && !r.store.transitionState.isTransitioning
      && r.player.currentMode == Live && r.player.pending == [Live]
  {
    var c := CompleteTransition(w, now);
    assert c.player.currentMode == Live && c.player.pending == [Live];
    assert IsActiveSlot(c) && c.store.admin.isGoLiveEnabled;
    assert CheckScheduled(c, now).None? && CheckAdmin(c).None?;
  }

  /**
    No re-entrancy guard: Go-Live switched on while a scheduled switch is still settling starts a
    second transition, and after the first completes the transition record reads idle although
    the second is still pending.
  */
  lemma TransitionsOverlap(w: World, t1: int, n1: string, t2: int, fn: string, n2: string, t3: int, n3: string)
    requires IsActiveSlot(w) && !w.store.admin.isGoLiveEnabled
    requires w.player.currentMode == Replay && w.player.pending == []
    requires SwitchTimeReached(w.player.slot, t1)
    ensures var w1 := Step(w, Tick(t1, n1));
      var w2 := Step(w1, GoLiveSet(true, t2, fn, n2));
      var w3 := Step(w2, Complete(t3, n3));
      && w1.player.pending == [Live]
      && w2.player.pending == [Live, Live]
      && !w3.store.transitionState.isTransitioning && w3.player.pending == [Live]
  {
    TickStartsScheduledSwitch(w, t1, n1);
    var w1 := Step(w, Tick(t1, n1));
    OverrideOnStartsOneTransition(w1, t2, fn, n2);
    assert w1.player.pending == [Live] by { assert w.player.pending + [Live] == [Live]; }
    var w2 := Step(w1, GoLiveSet(true, t2, fn, n2));
    assert w2.player.pending == [Live, Live] by { assert w1.player.pending + [Live] == [Live, Live]; }
    CompletionClearsRecordOfPendingSwitch(w2, t3, n3);
  }

  // ---- what the player shows ----

  datatype Surface = ReplaySurface | LiveSurface

  datatype Screen = Screen(surface: Surface, showCountdown: bool, overlay: Option<string>, badge: string, attendees: int)

  function Render(w: World): (r: Screen)
    ensures r.surface == ReplaySurface <==> w.player.currentMode == Replay
    ensures r.showCountdown <==> w.player.currentMode == Replay
    ensures r.overlay.Some? <==> w.store.transitionState.isTransitioning
    ensures r.overlay.Some? ==> r.overlay.value == w.store.transitionState.transitionMessage
    ensures r.badge == (if w.player.currentMode == Live then "LIVE" else "REPLAY")
    ensures r.attendees == w.player.attendeeCount
  {
    Screen(
      if w.player.currentMode == Replay then ReplaySurface else LiveSurface,
      w.player.currentMode == Replay,
      if w.store.transitionState.isTransitioning then Some(w.store.transitionState.transitionMessage) else None,
      if w.player.currentMode == Live then "LIVE" else "REPLAY",
      w.player.attendeeCount)
  }

  /** While a transition is settling, the overlay announces its target; the content shown is still the old mode's. */
  lemma BeginShowsOverlay(w: World, req: Request, now: int, nonce: string)
    ensures var r := Render(BeginTransition(w, req, now, nonce));
      && r.overlay == Some("Switching to " + ModeName(req.target) + " mode...")
      && r.surface == Render(w).surface
  {
  }

  /** The player's `extractMeetingNumber`: only the "/j/" pattern, "" when it does not match. */
  function ExtractMeetingNumber(zoomUrl: string): (r: string)
    ensures r == "" <==> forall j :: !Utils.MarkerWithDigitAt(zoomUrl, "/j/", j)
    ensures r != "" ==> Some(r) == Utils.JoinPathNumber(zoomUrl)
  {
    var m := Utils.JoinPathNumber(zoomUrl);
    if m.Some? then m.value else ""
  }

  /** Where the two extractors overlap, a URL with "/j/" and a digit, they agree. */
  lemma ExtractorsAgreeOnJoinUrls(zoomUrl: string, j: nat)
    requires Utils.MarkerWithDigitAt(zoomUrl, "/j/", j)
    ensures ExtractMeetingNumber(zoomUrl) == Utils.ExtractZoomMeetingNumber(zoomUrl)
  {
  }

  /** The live-session configuration the player builds for its slot. */
  function PlayerZoomConfig(slot: WebinarSlot, leaveUrl: string): (r: ZoomConfig)
    ensures r.role == AttendeeRole && r.passWord == "" && r.leaveUrl == leaveUrl
    ensures r.meetingNumber == ExtractMeetingNumber(slot.zoomUrl)
  {
    ZoomConfig(ExtractMeetingNumber(slot.zoomUrl), "Webinar Attendee", "attendee@webinar.com", "", leaveUrl, AttendeeRole)
  }
}

=== FILE: webinar_types.dfy ===
/**
  The data model of the webinar system: slots, the shared admin state, activity-log entries,
  the transition record and the live-session configuration. Instants are integer milliseconds
  since the epoch; a text that fails to parse as a date is the `Invalid` date.
*/
module WebinarTypes {

  datatype Option<+T> = None | Some(value: T)

  function Min(a: int, b: int): int {
    if a <= b then a else b
  }

  /** A slot shows either the recorded replay or the live session. */
  datatype Mode = Replay | Live

  /** The literal a mode is written as. */
  function ModeName(m: Mode): string {
    match m
    case Replay => "replay"
    case Live => "live"
  }

  /** Reads a mode literal back; exactly the two literals are modes. */
  function ParseMode(s: string): (r: Option<Mode>)
    ensures r.Some? <==> s == "replay" || s == "live"
    ensures r.Some? ==> ModeName(r.value) == s
  {
    if s == "replay" then Some(Replay) else if s == "live" then Some(Live) else None
  }

  /** An instant read from an ISO-8601 text; `Invalid` is the date a malformed text yields. */
  datatype Date = Valid(ms: int) | Invalid

  datatype WebinarSlot = WebinarSlot(
    id: string,
    name: string,
    everwebinarUrl: string,
    zoomUrl: string,
    scheduledStartTime: Date,
    scheduledSwitchTime: Date,
    isActive: bool,
    currentMode: Mode,
    attendeeCount: int,
    lastSwitchTime: Option<int>)

  /** The four kinds of activity-log event. */
  datatype LogEvent = AttendeeJoined | AttendeeLeft | ModeSwitched | AdminAction

  function EventName(e: LogEvent): string {
    match e
    case AttendeeJoined => "attendee_joined"
    case AttendeeLeft => "attendee_left"
    case ModeSwitched => "mode_switched"
    case AdminAction => "admin_action"
  }

  /** Reads an event literal back; exactly the four literals are events. */
  function ParseEvent(s: string): (r: Option<LogEvent>)
    ensures r.Some? <==> s in {"attendee_joined", "attendee_left", "mode_switched", "admin_action"}
    ensures r.Some? ==> EventName(r.value) == s
  {
    if s == "attendee_joined" then Some(AttendeeJoined)
    else if s == "attendee_left" then Some(AttendeeLeft)
    else if s == "mode_switched" then Some(ModeSwitched)
    else if s == "admin_action" then Some(AdminAction)
    else None
  }

  /** Writing a mode or an event as its literal and reading it back is the identity. */
  lemma LiteralsRoundTrip(m: Mode, e: LogEvent)
    ensures ParseMode(ModeName(m)) == Some(m)
    ensures ParseEvent(EventName(e)) == Some(e)
  {
  }

  /** The fields of a log entry the caller supplies; the store adds the id. */
  datatype LogEntry = LogEntry(
    slotId: string,
    timestamp: int,
    event: LogEvent,
    details: string,
    attendeeCount: Option<int>)

  datatype WebinarLog = WebinarLog(id: string, entry: LogEntry)

  datatype AdminState = AdminState(
    isGoLiveEnabled: bool,
    activeSlotId: Option<string>,
    slots: seq<WebinarSlot>,
    logs: seq<WebinarLog>)

  datatype TransitionState = TransitionState(
    isTransitioning: bool,
    transitionMessage: string,
    targetMode: Mode)

  /** The role number of an attendee in the live-session SDK. */
  const AttendeeRole := 0

  datatype ZoomConfig = ZoomConfig(
    meetingNumber: string,
    userName: string,
    userEmail: string,
    passWord: string,
    leaveUrl: string,
    role: int)
}
